=== FILE: README.md ===
# Angora directed search: interesting values, token dictionary, search strategies

This project models the core of Angora's directed input search (the
`fuzzer/src/search` module) in Dafny and proves properties of the model.

- **Interesting-value tables** (`interesting_val.dfy`, module `InterestingVal`).
  These are the four fixed tables of boundary integers (`V0`, `V8`, `V16`, `V32`).
  `get_interesting_bytes` picks one of them by operand width.
- **Comparison-token dictionary** (`token_dict.dfy`, module `TokenDict`).
  `Dict` is an insertion-ordered map from a comparison id (`cmpid`) to a list
  of byte strings. It is represented as the key sequence in insertion order
  plus a map. `Dict::filter` folds an execution's comparison records (`SCond`)
  into it. Each tainted range `begin..=end` of a record is sliced out of the
  handler's buffer. For a known key, the words it does not yet hold are
  appended. A new key is inserted with its word list as is.
- **Search strategies** (`search.dfy` for what they share; `cbh.dfy`, `mb.dfy`
  and `random.dfy`). Each strategy runs against a search handler that is not
  modelled. Here the handler is a finite oracle trace with one `Trial` per
  loop iteration. A `Trial` holds the region after `randomize_all`, the
  fitness and records `execute_cond` returns, and the handler buffer that
  `filter` slices. The trace ends where `is_stopped_or_skip()` first answers
  true.
  - A run is a pure fold over the trace.
  - It returns an `Outcome`: it either panicked on its length assertion, or it
    finished with the predicate's variable binding, the shared dictionary,
    and a `Log` of the calls it made on the handler. The log has a prelude,
    one "round" per iteration, and an exit.
  - Fitness is an abstract total order (`int`, lower is better) standing in
    for `f64`.

Modelling assumptions about the collaborators whose code is not part of this
model (`SearchHandler`, `MutInput`):
- After `assign(v)` with `v` as long as the region, `get_value()` returns `v`.
- After `randomize_all`, `get_value()` returns the trial's `value`.
- `Input.len` is what `len()` reports.

What the code does, and the model with it:
- `Dict` is keyed by `cmpid`. There is no offset merging and no histogram.
  A length-keyed `Dict` with `parse_dict`, `len`, `get_list` and `is_empty`
  survives only as commented-out code
  (Angora/fuzzer/src/search/interesting_val.rs:153-209).
- The random search never executes its candidate and never feeds the
  dictionary.
- The magic-bytes search discards what its planting execution returns.

## Model

| member | source | states |
|---|---|---|
| InterestingVal.GetInterestingBytes | Angora/fuzzer/src/search/interesting_val.rs:78-88 | width 1 gets the 8-bit table (9 entries), width 2 the 16-bit table (19), widths 4 and 8 the 32-bit table as written (27); every other width gets exactly `[0]`; 0 is always present; 1 is present exactly for the four known widths; every value fits the operand width, capped at 4 bytes |
| InterestingVal.V32KeepsMultiplicity | Angora/fuzzer/src/search/interesting_val.rs:48-76 | the 32-bit lookup is a sequence, not a set: it keeps all 27 entries and holds 4194304250 twice, at entries 20 and 21 |
| InterestingVal.V16ExtendsV8 | Angora/fuzzer/src/search/interesting_val.rs:14-46 | the 16-bit table begins with the 8-bit table sign-extended; neither table repeats an entry |
| InterestingVal.V32AsWrittenDiscrepancy | Angora/fuzzer/src/search/interesting_val.rs:48-76 | as written, the 32-bit table breaks the sign-extension of the 16-bit table at entry 9 and repeats an entry (Findings) |
| InterestingVal.V32IntendedWidensV16 | Angora/fuzzer/src/search/interesting_val.rs:48-76 | the corrected 32-bit table sign-extends the 16-bit table, has 27 distinct 4-byte entries, and differs from the written one only at entries 9 and 21 |
| InterestingVal.GetInterestingBytesIntended | Angora/fuzzer/src/search/interesting_val.rs:78-88 | the lookup with the corrected table: for widths 4 and 8 it sign-extends the 16-bit table with no repeats; it agrees with the written lookup elsewhere; same lengths, values fit the width |
| TokenDict.Slice | Angora/fuzzer/src/search/interesting_val.rs:132 | a word sliced for range `begin..=end` has length `end - begin + 1` and its byte i is buffer byte `begin + i`; it is defined only when `begin <= end + 1 <= len`, because otherwise the slice panics |
| TokenDict.Words | Angora/fuzzer/src/search/interesting_val.rs:130-133 | a record yields one word per range, in range order |
| TokenDict.AppendNew | Angora/fuzzer/src/search/interesting_val.rs:139-145 | the old list is a prefix of the result; a word is in the result iff it was in the list or among the new words; every appended word is one of the new words and differs from every other entry; appended words keep the order of their first occurrence among the new words |
| TokenDict.FilterCond | Angora/fuzzer/src/search/interesting_val.rs:129-149 | one record: the dictionary grows; the record's key ends up listing all its words; every other key is unchanged; at most one key is added, it is the record's key and goes last; every added word is a word of the record; under a key present before, no added word repeats another entry; the representation invariant is kept |
| TokenDict.FilterCondFresh | Angora/fuzzer/src/search/interesting_val.rs:146-148 | a key not yet present is appended to the key order and gets exactly one word per range, in range order, duplicates kept |
| TokenDict.FilterCondKnown | Angora/fuzzer/src/search/interesting_val.rs:139-145 | a present key keeps the key order and its old list as a prefix; it only gains words the list did not hold, drawn from the record, in the order of the record's ranges |
| TokenDict.Filter | Angora/fuzzer/src/search/interesting_val.rs:127-151 | no key is lost; the key order becomes the old key order followed by the keys of the records that were not yet present, each once, in the order the records first name them; old lists are prefixes of new ones; every record's key lists every word sliced for it; keys named by no record are unchanged; new keys were absent and are named by a record; every word added under a key, beyond those it listed before, was sliced for that key by a record; under a key present before, every added word differs from every other word of its list (no duplicate is pushed); every key's list starts with its base (its old list, or for a key the call creates, the words of the first record naming it, verbatim) and every word past the base differs from every other word of the list; the invariant is kept |
| TokenDict.FilterLists | Angora/fuzzer/src/search/interesting_val.rs:127-151 | the exact list each key ends up with: its base (its old list, or for a key the call creates, the first naming record's words verbatim), followed by the words of the later records naming it, in record order and range order, each pushed only if not yet listed |
| TokenDict.FilterKeySet | Angora/fuzzer/src/search/interesting_val.rs:146-148 | the keys after filtering are exactly the old keys together with every key a record names |
| TokenDict.FilterCovered | Angora/fuzzer/src/search/interesting_val.rs:139-145 | a dictionary that already lists every word of every record is left unchanged by filtering those records |
| TokenDict.FilterIdempotent | Angora/fuzzer/src/search/interesting_val.rs:139-145 | filtering the same records against the same buffer twice gives the same dictionary as filtering them once |
| TokenDict.FilterSingleRecordVerbatim | Angora/fuzzer/src/search/interesting_val.rs:146-148 | a key absent beforehand and named by exactly one record ends up with that record's words verbatim |
| TokenDict.FreshKeyKeepsDuplicates | Angora/fuzzer/src/search/interesting_val.rs:146-148 | example: two identical ranges under a new key file the word twice, and filtering again adds nothing |
| Search.Harvest | Angora/fuzzer/src/search/cbh.rs:41-50 | the dictionary after a loop's iterations: it only grows and keeps the invariant; it is unchanged when no iteration has both `enable_dict` and a non-empty record list; it lists every word of every record that fed it; every word added under a key was sliced for that key by a record of a feeding iteration; under a key present before, no added word repeats a word of its list; every key's list starts with its base (its old list, or for a key the loop creates, the words of the first feeding record naming it, verbatim) and every word past the base differs from every other word of the list; a key no feeding iteration names is unchanged; every added key was absent and is named by a feeding iteration; the key order becomes the old order followed by each feeding iteration's new keys, iteration by iteration, in the order its records first name them |
| Search.Feed | Angora/fuzzer/src/search/cbh.rs:41-50 | one iteration's dictionary update: the dictionary only grows; it is unchanged unless `enable_dict` holds and the records are non-empty; otherwise it then lists every word of the records, keys no record names are unchanged, the keys are the old keys plus every named key, and the new keys follow the old ones in the order the records first name them |
| Search.Round | Angora/fuzzer/src/search/cbh.rs:34-50 | one climbing or magic-bytes iteration: it polls the stop signal first and sees false, and polls nowhere else; it restores the restart value, randomizes against the shared dictionary, then executes; a filtering happens iff `enable_dict` holds and the records are non-empty, only as the last call, with the iteration's records and the handler's buffer |
| Search.RoundCounts | Angora/fuzzer/src/search/cbh.rs:33-50 | one climbing or magic-bytes iteration first polls the stop signal and sees false; it executes once; it filters exactly when `enable_dict` holds and the records are non-empty |
| Search.RoundsCounts | Angora/fuzzer/src/search/cbh.rs:33-56 | over a whole loop: one execution per trial, one filtering per feeding trial, and no poll that sees the stop signal |
| Search.RoundsWellShaped | Angora/fuzzer/src/search/mb.rs:50-53 | a prelude without polls, then rounds of the trace, then exit on the first positive poll, make a well-shaped log |
| Search.StopSeenOnlyLast | Angora/fuzzer/src/search/cbh.rs:33-36 | in a well-shaped log the stop signal is seen exactly once, by the last call, so nothing runs after it |
| Cbh.FirstMin | Angora/fuzzer/src/search/cbh.rs:52-55 | returns the index of the first observation with the lowest fitness |
| Cbh.FirstMinSnoc | Angora/fuzzer/src/search/cbh.rs:52-55 | a new observation becomes the first minimum exactly when its fitness is strictly lower (strict `<`, ties keep the incumbent) |
| Cbh.Loop | Angora/fuzzer/src/search/cbh.rs:33-56 | the loop's incumbent fitness never rises; it is at most every trial's fitness; the incumbent is the start or some trial; an unchanged fitness means an unchanged incumbent; the dictionary is the harvest; each round is that trial's round |
| Cbh.PreludeCalls | Angora/fuzzer/src/search/cbh.rs:21-31 | before the loop, one execution, plus one more when the recorded binding's length matches the region's; no filtering and no stop poll |
| Cbh.PreludeIncumbent | Angora/fuzzer/src/search/cbh.rs:21-31 | the starting incumbent is the recorded binding exactly when its length matches and its fitness is strictly lower; otherwise it is the input's own value |
| Cbh.Run | Angora/fuzzer/src/search/cbh.rs:14-59 | panics exactly when the input length is 0; otherwise the log is well-shaped, the dictionary is the harvest of the trials (pre-loop executions never feed it), and the prelude executes once per pre-loop observation |
| Cbh.LoopEndsOnFirstMin | Angora/fuzzer/src/search/cbh.rs:33-56 | started from the incumbent of the observations so far, the loop ends on the first minimum of all observations |
| Cbh.LoopRestartsFromIncumbent | Angora/fuzzer/src/search/cbh.rs:37-38 | round k resets the region to the incumbent of the observations made before it |
| Cbh.RunWritesBackFirstMin | Angora/fuzzer/src/search/cbh.rs:21-58 | the binding written back is the first observation of the run to reach its lowest fitness; round k restarts from the first minimum of the observations before it |
| Cbh.FminNeverIncreases | Angora/fuzzer/src/search/cbh.rs:52-55 | the incumbent fitness after more iterations is at most the one after fewer |
| Cbh.RunCallCounts | Angora/fuzzer/src/search/cbh.rs:21-58 | a finished climb executes once per pre-loop observation and once per iteration; it filters once per feeding iteration; it sees the stop signal only on its last call |
| Mb.Loop | Angora/fuzzer/src/search/mb.rs:50-67 | every round restores the value captured before the plant; the loop's dictionary is the harvest of the trials |
| Mb.Run | Angora/fuzzer/src/search/mb.rs:14-68 | panics exactly when the input length is 0; otherwise it plants and executes the binding before any poll; the binding is returned unchanged; the dictionary is the harvest; every round restarts from the original value; the log is well-shaped |
| Mb.RunIgnoresFitness | Angora/fuzzer/src/search/mb.rs:56 | two traces that differ only in fitness give the same run |
| Mb.PlantBeforeStop | Angora/fuzzer/src/search/mb.rs:22-27 | with the stop signal already set, the run still assigns and executes the binding, then polls once; the dictionary is untouched |
| Mb.RunCallCounts | Angora/fuzzer/src/search/mb.rs:23-67 | a finished magic-bytes run executes 1 + (number of iterations) times; it filters once per feeding iteration; it sees the stop signal only on its last call |
| Mb.SameDictionaryAsClimb | Angora/fuzzer/src/search/mb.rs:57-66 | fed the same trace, magic-bytes and climbing searches leave the same dictionary |
| Random.RandomRound | Angora/fuzzer/src/search/random.rs:17-21 | one random iteration: it polls the stop signal first and sees false, then restores the original value; it never executes or filters, and every randomize call has the dictionary disabled and a fresh local dictionary |
| Random.Loop | Angora/fuzzer/src/search/random.rs:16-22 | each iteration polls, restores the original value and randomizes; there are no executions and no filtering |
| Random.Run | Angora/fuzzer/src/search/random.rs:12-23 | never panics, whatever the input length; returns the binding and dictionary unchanged; never executes or filters; every randomize call has the dictionary disabled and a fresh local dictionary; every round restores the original value |
| Random.SameDictionaryAsDisabled | Angora/fuzzer/src/search/random.rs:21 | for the shared dictionary, a random run is the same as a loop with the dictionary disabled |

## Left out

- Locking of the shared dictionary is not modelled: the `RwLock` write lock and lock-poison recovery with its warning (Angora/fuzzer/src/search/cbh.rs:42-48, Angora/fuzzer/src/search/mb.rs:58-64). The guarded call is modelled as a plain update through `Filter`. Other threads' concurrent updates are not modelled either: a run takes the dictionary in and hands it out.
- The internals of `SearchHandler`, `get_f_input`, `execute_cond`, `is_stopped_or_skip`, `randomize_all`, `assign`, `get_value`, `val_len` and `TagSeg` are not part of this model. Their results are oracle inputs. `TagSeg` is reduced to its `begin` and `end`.
- `f64` fitness, including NaN (which never compares `<`), is replaced by an abstract totally ordered `int`.
- Logging (`info!`, `warn!`) and unused imports and locals are left out. This includes the local `dict` of the magic-bytes search.
- The commented-out length-keyed `Dict`, `parse_dict`, `len`, `get_list` and `is_empty`, and the commented-out lookup block in the magic-bytes search, are dead code and are left out.
- `Word` is an unused `String` wrapper and is left out. So is the trivial `SCond::new`.
- A slice outside the handler's buffer panics inside `filter`. This is a precondition (`Sliceable`, `AllInBounds`), following the executor's promise about the records it returns, and is not an error outcome.
- Search.Call: `Execute` carries no value. What is executed is fixed by the `Assign` and `Randomize` calls before it. The planted `assign` in the magic-bytes search is logged, but its effect when the lengths differ belongs to `MutInput` and is not modelled.
- Random.Run: the trace is only the number of iterations before the stop signal. The randomized values are never executed or observed, so they are not modelled.
- Integer widths: operand width (`usize`) and `TagSeg` bounds are unbounded naturals. `cmpid` is bounded to `u32` and bytes to `u8`.

## Findings

| source | as written | input that shows it | evidently intended | confidence | as-written member | corrected member |
|---|---|---|---|---|---|---|
| Angora/fuzzer/src/search/interesting_val.rs:58 | entry 9 of the 32-bit table is 4294934428 | entry 9 of the 16-bit table is 32768, that is -32768, and it sign-extends to 4294934528; the annotation says "Overflow signed 16-bit when decremented" | 4294934528 (-32768 as an unsigned 32-bit value) | high; not executed | InterestingVal.V32AsWrittenDiscrepancy | InterestingVal.V32IntendedWidensV16 |
| Angora/fuzzer/src/search/interesting_val.rs:70 | entry 21 of the 32-bit table repeats 4194304250 | entries 20 and 21 are equal; the annotation says "Overflow signed 16-bit" | 4294934527 (-32769 as an unsigned 32-bit value) | medium; not executed | InterestingVal.V32AsWrittenDiscrepancy | InterestingVal.GetInterestingBytesIntended |

`GetInterestingBytes` keeps the table as written, because that is what the
randomizer receives. The corrected lookup is `GetInterestingBytesIntended`.
No other member of this model reads the tables.

=== FILE: cbh.dfy ===
/**
  The climb-hill search: first-improvement hill climbing on the tainted
  region. The incumbent starts as the input's own value (or the predicate's
  recorded binding when that is strictly better), every iteration restarts
  from the incumbent, and a trial replaces it only when its fitness is
  strictly lower. On stop the incumbent is written back to the predicate's
  variable binding.
 */
module Cbh {
  import opened TokenDict
  import opened Search

  /** A value together with the fitness its execution reported. */
  datatype Observation = Observation(value: Value, fitness: Fitness)

  /** Index i holds the lowest fitness of `obs`, and no earlier entry
      reaches it: the first observation to attain the minimum. */
  ghost predicate IsFirstMin(obs: seq<Observation>, i: int) {
    && 0 <= i < |obs|
    && (forall j :: 0 <= j < |obs| ==> obs[i].fitness <= obs[j].fitness)
    && (forall j :: 0 <= j < i ==> obs[i].fitness < obs[j].fitness)
  }

  /** The first minimum, found from the right. */
  function FirstMin(obs: seq<Observation>): (i: nat)
    requires |obs| > 0
    ensures IsFirstMin(obs, i)
    decreases |obs|
  {
    if |obs| == 1 then 0
    else
      var j := 1 + FirstMin(obs[1..]);
      assert obs[1..][j - 1] == obs[j];
      assert forall m :: 1 <= m < |obs| ==> obs[1..][m - 1] == obs[m];
      if obs[j].fitness < obs[0].fitness then j else 0
  }

  lemma FirstMinUnique(obs: seq<Observation>, i: int, i': int)
    requires IsFirstMin(obs, i) && IsFirstMin(obs, i')
    ensures i == i'
  {
    assert obs[i].fitness <= obs[i'].fitness && obs[i'].fitness <= obs[i].fitness;
  }

  /** Appending one observation moves the first minimum to it exactly when
      its fitness is strictly lower. */
  lemma FirstMinSnoc(obs: seq<Observation>, x: Observation)
    requires |obs| > 0
    ensures FirstMin(obs + [x]) ==
              if x.fitness < obs[FirstMin(obs)].fitness then |obs| else FirstMin(obs)
  {
    var i := FirstMin(obs);
    var s := obs + [x];
    var n := if x.fitness < obs[i].fitness then |obs| else i;
    IsFirstMinSnoc(obs, i, x);
    var m := FirstMin(s);
    FirstMinUnique(s, n, m);
  }

  lemma IsFirstMinSnoc(obs: seq<Observation>, i: int, x: Observation)
    requires IsFirstMin(obs, i)
    ensures IsFirstMin(obs + [x], if x.fitness < obs[i].fitness then |obs| else i)
  {
    var s := obs + [x];
    assert forall j :: 0 <= j < |obs| ==> s[j] == obs[j];
    assert s[|obs|] == x;
  }

  /** The incumbent after a sequence of observations. */
  function Incumbent(obs: seq<Observation>): Observation
    requires |obs| > 0
  {
    obs[FirstMin(obs)]
  }

  function TrialObservations(trials: seq<Trial>): (obs: seq<Observation>)
    ensures |obs| == |trials|
    ensures forall i :: 0 <= i < |trials| ==> obs[i] == Observation(trials[i].value, trials[i].fitness)
  {
    seq(|trials|, i requires 0 <= i < |trials| => Observation(trials[i].value, trials[i].fitness))
  }

  /** The state the loop leaves: incumbent, dictionary, and its rounds. */
  datatype Climb = Climb(best: Observation, dict: Dict, rounds: seq<seq<Call>>)

  /** The loop's contract after one iteration, from the contract of the
      rest of the loop. */
  lemma LoopStep(enableDict: bool, best: Observation, trials: seq<Trial>, best': Observation, rest: Climb, c: Climb)
    requires |trials| > 0
    requires best' == if trials[0].fitness < best.fitness then Observation(trials[0].value, trials[0].fitness) else best
    requires |rest.rounds| == |trials| - 1
    requires rest.best.fitness <= best'.fitness
    requires forall i :: 0 <= i < |trials[1..]| ==> rest.best.fitness <= trials[1..][i].fitness
    requires rest.best == best' || exists i :: 0 <= i < |trials[1..]| && rest.best == Observation(trials[1..][i].value, trials[1..][i].fitness)
    requires rest.best.fitness == best'.fitness ==> rest.best == best'
    requires forall k :: 0 <= k < |trials[1..]| ==> RoundOf(rest.rounds[k], enableDict, trials[1..][k])
    requires c == Climb(rest.best, rest.dict, [Round(best.value, enableDict, trials[0])] + rest.rounds)
    ensures |c.rounds| == |trials|
    ensures c.best.fitness <= best.fitness
    ensures forall i :: 0 <= i < |trials| ==> c.best.fitness <= trials[i].fitness
    ensures c.best == best || exists i :: 0 <= i < |trials| && c.best == Observation(trials[i].value, trials[i].fitness)
    ensures c.best.fitness == best.fitness ==> c.best == best
    ensures forall k :: 0 <= k < |trials| ==> RoundOf(c.rounds[k], enableDict, trials[k])
  {
    assert forall i :: 1 <= i < |trials| ==> trials[1..][i - 1] == trials[i];
    forall i | 0 <= i < |trials| ensures c.best.fitness <= trials[i].fitness {
      if i > 0 {
        assert trials[1..][i - 1] == trials[i];
      }
    }
    if rest.best != best' {
      var i :| 0 <= i < |trials[1..]| && rest.best == Observation(trials[1..][i].value, trials[1..][i].fitness);
      assert trials[1..][i] == trials[i + 1];
    }
    forall k | 0 <= k < |trials| ensures RoundOf(c.rounds[k], enableDict, trials[k]) {
      if k > 0 {
        assert c.rounds[k] == rest.rounds[k - 1];
        assert trials[1..][k - 1] == trials[k];
      }
    }
  }

  /** The search loop over the remaining trials, from incumbent `best`. */
  function Loop(enableDict: bool, best: Observation, dict: Dict, trials: seq<Trial>): (c: Climb)
    requires Sliceable(enableDict, trials)
    ensures |c.rounds| == |trials|
    ensures c.dict == Harvest(dict, enableDict, trials)
    ensures c.best.fitness <= best.fitness
    ensures forall i :: 0 <= i < |trials| ==> c.best.fitness <= trials[i].fitness
    ensures c.best == best || exists i :: 0 <= i < |trials| && c.best == Observation(trials[i].value, trials[i].fitness)
    ensures c.best.fitness == best.fitness ==> c.best == best
    ensures forall k :: 0 <= k < |trials| ==> RoundOf(c.rounds[k], enableDict, trials[k])
    decreases |trials|
  {
    if |trials| == 0 then Climb(best, dict, [])
    else
      var t := trials[0];
      var dict' := Feed(dict, enableDict, t);
      var best' := if t.fitness < best.fitness then Observation(t.value, t.fitness) else best;
      HarvestUnfold(dict, enableDict, trials);
      var rest := Loop(enableDict, best', dict', trials[1..]);
      var c := Climb(rest.best, rest.dict, [Round(best.value, enableDict, t)] + rest.rounds);
      LoopStep(enableDict, best, trials, best', rest, c);
      c
  }

  /** The observations made before the loop: the input's own value, then
      the recorded binding when its length matches the region's. */
  function Prelude(input: Input, variables: Value, initial: Fitness, planted: Fitness): seq<Observation> {
    [Observation(input.value, initial)]
    + (if |input.value| == |variables| then [Observation(variables, planted)] else [])
  }

  /** Every observation of a run, in the order the run made them. */
  function Observations(input: Input, variables: Value, initial: Fitness, planted: Fitness, trials: seq<Trial>): seq<Observation> {
    Prelude(input, variables, initial, planted) + TrialObservations(trials)
  }

  /** The calls made before the loop: execute the input as it is, then, when
      lengths match, plant the recorded binding and execute again. */
  function PreludeCalls(eligible: bool, variables: Value): (calls: seq<Call>)
    ensures Count(calls, IsExecute) == if eligible then 2 else 1
    ensures Count(calls, IsFilter) == 0
    ensures forall i :: 0 <= i < |calls| ==> !calls[i].StopCheck?
  {
    assert Count([Execute], IsExecute) == 1 by { assert [Execute][1..] == []; }
    assert Count([Assign(variables), Execute], IsExecute) == 1 by {
      assert [Assign(variables), Execute][1..] == [Execute];
    }
    CountConcat([Execute], if eligible then [Assign(variables), Execute] else [], IsExecute);
    CountConcat([Execute], if eligible then [Assign(variables), Execute] else [], IsFilter);
    [Execute] + (if eligible then [Assign(variables), Execute] else [])
  }

  /** `CbhSearch::run`. `initial` and `planted` are the fitnesses the two
      pre-loop executions report (the second happens only when the recorded
      binding's length matches); `trials` are the loop iterations until the
      stop signal. */
  function Run(enableDict: bool, input: Input, variables: Value, initial: Fitness, planted: Fitness,
               trials: seq<Trial>, dict: Dict): (o: Outcome)
    requires Sliceable(enableDict, trials)
    ensures o.Panicked? <==> input.len == 0
    ensures o.Finished? ==>
      && WellShaped(o.log)
      && o.dict == Harvest(dict, enableDict, trials)
      && |o.log.rounds| == |trials|
      && (forall k :: 0 <= k < |trials| ==> RoundOf(o.log.rounds[k], enableDict, trials[k]))
      && Count(o.log.prelude, IsFilter) == 0
      && Count(o.log.prelude, IsExecute) == |Prelude(input, variables, initial, planted)|
  {
    if input.len == 0 then Panicked
    else
      var eligible := |input.value| == |variables|;
      var start := if eligible && planted < initial then Observation(variables, planted)
                   else Observation(input.value, initial);
      var c := Loop(enableDict, start, dict, trials);
      var prelude := PreludeCalls(eligible, variables);
      RoundsWellShaped(prelude, c.rounds, enableDict, trials);
      Finished(c.best.value, c.dict, Log(prelude, c.rounds, [StopCheck(true)]))
  }

  /** Observing the first k trials is observing the first, then k - 1 more. */
  lemma SeenThrough(seen: seq<Observation>, trials: seq<Trial>, k: nat)
    requires 0 < k <= |trials|
    ensures (seen + [Observation(trials[0].value, trials[0].fitness)]) + TrialObservations(trials[1..][..k - 1])
            == seen + TrialObservations(trials[..k])
  {
    var x := Observation(trials[0].value, trials[0].fitness);
    var rest := TrialObservations(trials[1..][..k - 1]);
    assert TrialObservations(trials[..k]) == [x] + rest;
    assert (seen + [x]) + rest == seen + ([x] + rest);
  }

  /** One iteration moves the incumbent of the observations seen so far to
      the incumbent of those plus the iteration's trial. */
  lemma StepIncumbent(seen: seq<Observation>, t: Trial)
    requires |seen| > 0
    ensures Incumbent(seen + [Observation(t.value, t.fitness)]) ==
              if t.fitness < Incumbent(seen).fitness then Observation(t.value, t.fitness) else Incumbent(seen)
  {
    var x := Observation(t.value, t.fitness);
    FirstMinSnoc(seen, x);
    assert (seen + [x])[|seen|] == x;
    assert (seen + [x])[FirstMin(seen)] == seen[FirstMin(seen)];
  }

  lemma SliceableTail(enableDict: bool, trials: seq<Trial>)
    requires |trials| > 0 && Sliceable(enableDict, trials)
    ensures Sliceable(enableDict, trials[1..])
  {
    assert forall i :: 0 <= i < |trials[1..]| ==> trials[1..][i] == trials[i + 1];
  }

  /** One iteration of the loop, unfolded: its first round restarts from
      the incumbent, and the incumbent it ends on is the one the rest of the
      loop ends on from the updated state. */
  lemma LoopUnfold(enableDict: bool, best: Observation, dict: Dict, trials: seq<Trial>)
    requires |trials| > 0 && Sliceable(enableDict, trials)
    ensures Sliceable(enableDict, trials[1..])
    ensures Loop(enableDict, best, dict, trials).best
            == Loop(enableDict,
                    if trials[0].fitness < best.fitness then Observation(trials[0].value, trials[0].fitness) else best,
                    Feed(dict, enableDict, trials[0]),
                    trials[1..]).best
    ensures Loop(enableDict, best, dict, trials).rounds
            == [Round(best.value, enableDict, trials[0])]
               + Loop(enableDict,
                      if trials[0].fitness < best.fitness then Observation(trials[0].value, trials[0].fitness) else best,
                      Feed(dict, enableDict, trials[0]),
                      trials[1..]).rounds
  {
    SliceableTail(enableDict, trials);
  }

  /** Started from the incumbent of the observations seen so far, the loop
      ends on the first minimum of everything observed. */
  lemma {:induction false} LoopEndsOnFirstMin(enableDict: bool, seen: seq<Observation>, dict: Dict, trials: seq<Trial>)
    requires |seen| > 0 && Sliceable(enableDict, trials)
    ensures Loop(enableDict, Incumbent(seen), dict, trials).best == Incumbent(seen + TrialObservations(trials))
    decreases |trials|
  {
    if |trials| == 0 {
      assert seen + TrialObservations(trials) == seen;
    } else {
      var t := trials[0];
      var seen' := seen + [Observation(t.value, t.fitness)];
      var dict' := Feed(dict, enableDict, t);
      LoopUnfold(enableDict, Incumbent(seen), dict, trials);
      LoopEndsOnFirstMin(enableDict, seen', dict', trials[1..]);
      EndsStep(seen, trials);
    }
  }

  /** The incumbent after one more observation, followed by the rest of the
      trials, is the incumbent of all of them. */
  lemma EndsStep(seen: seq<Observation>, trials: seq<Trial>)
    requires |seen| > 0 && |trials| > 0
    ensures Incumbent(seen + [Observation(trials[0].value, trials[0].fitness)]) ==
              if trials[0].fitness < Incumbent(seen).fitness then Observation(trials[0].value, trials[0].fitness) else Incumbent(seen)
    ensures (seen + [Observation(trials[0].value, trials[0].fitness)]) + TrialObservations(trials[1..])
            == seen + TrialObservations(trials)
  {
    StepIncumbent(seen, trials[0]);
    SeenThrough(seen, trials, |trials|);
    assert trials[..|trials|] == trials && trials[1..][..|trials| - 1] == trials[1..];
  }

  /** Round k of the loop restarts from the incumbent of the observations
      made before it. */
  lemma {:induction false} LoopRestartsFromIncumbent(enableDict: bool, seen: seq<Observation>, dict: Dict, trials: seq<Trial>)
    requires |seen| > 0 && Sliceable(enableDict, trials)
    ensures forall k :: 0 <= k < |trials| ==>
              && |Loop(enableDict, Incumbent(seen), dict, trials).rounds[k]| > 1
              && Loop(enableDict, Incumbent(seen), dict, trials).rounds[k][1]
                   == Assign(Incumbent(seen + TrialObservations(trials[..k])).value)
    decreases |trials|
  {
    if |trials| > 0 {
      var t := trials[0];
      var seen' := seen + [Observation(t.value, t.fitness)];
      var dict' := Feed(dict, enableDict, t);
      RoundsUnfold(enableDict, seen, dict, trials);
      LoopRestartsFromIncumbent(enableDict, seen', dict', trials[1..]);
      RestartsStep(seen, trials, Loop(enableDict, Incumbent(seen), dict, trials).rounds,
                   Round(Incumbent(seen).value, enableDict, t),
                   Loop(enableDict, Incumbent(seen'), dict', trials[1..]).rounds);
    }
  }

  /** The rounds of the loop from the incumbent so far: the first restarts
      from it, the rest are those of the loop from the incumbent that
      includes the first trial. */
  lemma RoundsUnfold(enableDict: bool, seen: seq<Observation>, dict: Dict, trials: seq<Trial>)
    requires |seen| > 0 && |trials| > 0 && Sliceable(enableDict, trials)
    ensures Sliceable(enableDict, trials[1..])
    ensures Loop(enableDict, Incumbent(seen), dict, trials).rounds
            == [Round(Incumbent(seen).value, enableDict, trials[0])]
               + Loop(enableDict, Incumbent(seen + [Observation(trials[0].value, trials[0].fitness)]),
                      Feed(dict, enableDict, trials[0]), trials[1..]).rounds
  {
    StepIncumbent(seen, trials[0]);
    LoopUnfold(enableDict, Incumbent(seen), dict, trials);
  }

  /** The first round restarts from the incumbent so far, and the later
      rounds restart from the incumbents that include the first trial. */
  lemma RestartsStep(seen: seq<Observation>, trials: seq<Trial>, rounds: seq<seq<Call>>,
                     first: seq<Call>, rest: seq<seq<Call>>)
    requires |seen| > 0 && |trials| > 0
    requires rounds == [first] + rest && |rest| == |trials| - 1
    requires |first| > 1 && first[1] == Assign(Incumbent(seen).value)
    requires forall k :: 0 <= k < |rest| ==>
               && |rest[k]| > 1
               && rest[k][1] == Assign(Incumbent(seen + [Observation(trials[0].value, trials[0].fitness)]
                                                 + TrialObservations(trials[1..][..k])).value)
    ensures forall k :: 0 <= k < |trials| ==>
              |rounds[k]| > 1 && rounds[k][1] == Assign(Incumbent(seen + TrialObservations(trials[..k])).value)
  {
    forall k | 0 <= k < |trials|
      ensures |rounds[k]| > 1 && rounds[k][1] == Assign(Incumbent(seen + TrialObservations(trials[..k])).value)
    {
      if k == 0 {
        assert seen + TrialObservations(trials[..0]) == seen;
      } else {
        assert rounds[k] == rest[k - 1];
        SeenThrough(seen, trials, k);
      }
    }
  }

  /** The incumbent the loop starts from is the first minimum of the
      pre-loop observations. */
  lemma PreludeIncumbent(input: Input, variables: Value, initial: Fitness, planted: Fitness)
    ensures Incumbent(Prelude(input, variables, initial, planted)) ==
              if |input.value| == |variables| && planted < initial then Observation(variables, planted)
              else Observation(input.value, initial)
  {
    var a := Observation(input.value, initial);
    assert IsFirstMin([a], 0);
    if |input.value| == |variables| {
      FirstMinSnoc([a], Observation(variables, planted));
      assert [a] + [Observation(variables, planted)] == Prelude(input, variables, initial, planted);
    }
  }

  /** The climb's result: the value written back to the predicate is the
      first observation to reach the lowest fitness of the whole run (ties
      keep the earlier one), and round k restarts from the first minimum of
      everything observed before it. */
  lemma RunWritesBackFirstMin(enableDict: bool, input: Input, variables: Value, initial: Fitness,
                              planted: Fitness, trials: seq<Trial>, dict: Dict)
    requires Sliceable(enableDict, trials) && input.len > 0
    ensures var o := Run(enableDict, input, variables, initial, planted, trials, dict);
            var obs := Observations(input, variables, initial, planted, trials);
            && o.Finished?
            && exists i :: IsFirstMin(obs, i) && o.variables == obs[i].value
    ensures var o := Run(enableDict, input, variables, initial, planted, trials, dict);
            forall k :: 0 <= k < |trials| ==>
              o.log.rounds[k][1] == Assign(Incumbent(Observations(input, variables, initial, planted, trials[..k])).value)
  {
    var pre := Prelude(input, variables, initial, planted);
    PreludeIncumbent(input, variables, initial, planted);
    LoopEndsOnFirstMin(enableDict, pre, dict, trials);
    LoopRestartsFromIncumbent(enableDict, pre, dict, trials);
    var obs := Observations(input, variables, initial, planted, trials);
    assert IsFirstMin(obs, FirstMin(obs));
  }

  /** The incumbent's fitness never increases: the first minimum of a
      longer run of observations is at most that of a shorter one. */
  lemma FminNeverIncreases(input: Input, variables: Value, initial: Fitness, planted: Fitness,
                           trials: seq<Trial>, k: nat, k': nat)
    requires k <= k' <= |trials|
    ensures Incumbent(Observations(input, variables, initial, planted, trials[..k'])).fitness
            <= Incumbent(Observations(input, variables, initial, planted, trials[..k])).fitness
  {
    var short := Observations(input, variables, initial, planted, trials[..k]);
    var long := Observations(input, variables, initial, planted, trials[..k']);
    var i := FirstMin(short);
    assert trials[..k'][..k] == trials[..k];
    assert long[i] == short[i];
  }

  /** Counting the calls of a finished climb: one execution per pre-loop
      observation and per iteration, one filtering per iteration whose
      records feed the dictionary, and the stop signal seen only last. */
  lemma RunCallCounts(enableDict: bool, input: Input, variables: Value, initial: Fitness,
                      planted: Fitness, trials: seq<Trial>, dict: Dict)
    requires Sliceable(enableDict, trials) && input.len > 0
    ensures var o := Run(enableDict, input, variables, initial, planted, trials, dict);
            && o.Finished?
            && Count(Calls(o.log), IsExecute) == |Prelude(input, variables, initial, planted)| + |trials|
            && Count(Calls(o.log), IsFilter) == FeedCount(enableDict, trials)
            && Calls(o.log)[|Calls(o.log)| - 1] == StopCheck(true)
            && forall i :: 0 <= i < |Calls(o.log)| - 1 ==> Calls(o.log)[i] != StopCheck(true)
  {
    var o := Run(enableDict, input, variables, initial, planted, trials, dict);
    LogCounts(o.log, enableDict, trials);
    StopSeenOnlyLast(o.log);
  }
}

=== FILE: interesting_val.dfy ===
/**
  The interesting-value tables of the directed search: boundary integers
  (0, 1, -1, signed and unsigned overflow points, round buffer sizes) that the
  input randomizer tries before falling back to random bytes, looked up by
  the byte width of the operand being mutated.
 */
module InterestingVal {

  /** An unsigned 64-bit table entry. */
  type U64 = x: int | 0 <= x < 0x1_0000_0000_0000_0000

  /** The table for widths that have no table of their own. */
  const V0: seq<U64> := [0]

  /** 8-bit boundary values. */
  const V8: seq<U64> := [128, 255, 0, 1, 16, 32, 64, 100, 127]

  /** 16-bit boundary values: the 8-bit ones widened, then 16-bit ones. */
  const V16: seq<U64> := [
    65408, 65535, 0, 1, 16, 32, 64, 100, 127,
    32768, 65407, 128, 255, 256, 512, 1000, 1024, 4096, 32767
  ]

  /** 32-bit boundary values, as the table is written (entries 9 and 21 are
      discussed under Findings in the README). */
  const V32: seq<U64> := [
    4294967168, 4294967295, 0, 1, 16, 32, 64, 100, 127,
    4294934428, 4294967167, 128, 255, 256, 512, 1000, 1024, 4096, 32767,
    2147483648, 4194304250, 4194304250, 32768, 65535, 65536, 100663045, 2147483647
  ]

  function Pow256(n: nat): (r: nat)
    ensures r > 0
  {
    if n == 0 then 1 else 0x100 * Pow256(n - 1)
  }

  lemma Pow256Widths()
    ensures Pow256(0) == 1 && Pow256(1) == 0x100 && Pow256(2) == 0x1_0000
    ensures Pow256(3) == 0x100_0000 && Pow256(4) == 0x1_0000_0000
  {
  }

  /** True when v is representable in `bytes` unsigned bytes. */
  predicate Fits(v: int, bytes: nat) {
    0 <= v < Pow256(bytes)
  }

  /** True when every entry of the table fits `bytes` bytes. */
  predicate AllFit(table: seq<U64>, bytes: nat) {
    forall i :: 0 <= i < |table| ==> Fits(table[i], bytes)
  }

  /** The operand width a table's values are bounded by: 8-byte operands
      share the 32-bit table, so their values never exceed 4 bytes. */
  function TableBytes(width: nat): nat {
    if width < 4 then width else 4
  }

  /** `get_interesting_bytes`: the table for an operand of `width` bytes. */
  function GetInterestingBytes(width: nat): (r: seq<U64>)
    ensures width == 1 ==> r == V8 && |r| == 9
    ensures width == 2 ==> r == V16 && |r| == 19
    ensures width == 4 || width == 8 ==> r == V32 && |r| == 27
    ensures width != 1 && width != 2 && width != 4 && width != 8 ==> r == [0]
    ensures 0 in r
    ensures width == 1 || width == 2 || width == 4 || width == 8 <==> 1 in r
    ensures AllFit(r, TableBytes(width))
  {
    Pow256Widths();
    match width
    case 1 => V8
    case 2 => V16
    case 4 => V32
    case 8 => V32
    case _ => V0
  }

  /** Number of occurrences of v in a table. */
  function Occurrences(table: seq<U64>, v: int): (n: nat)
    ensures n <= |table|
    ensures n > 0 <==> v in table
  {
    if |table| == 0 then 0
    else (if table[0] == v then 1 else 0) + Occurrences(table[1..], v)
  }

  lemma {:induction false} OccurrencesConcat(a: seq<U64>, b: seq<U64>, v: int)
    ensures Occurrences(a + b, v) == Occurrences(a, v) + Occurrences(b, v)
  {
    if |a| > 0 {
      assert (a + b)[1..] == a[1..] + b;
      OccurrencesConcat(a[1..], b, v);
    } else {
      assert a + b == b;
    }
  }

  lemma V32Around()
    ensures 4194304250 !in V32[..20]
    ensures 4194304250 !in V32[22..]
    ensures V32[20..22] == [4194304250, 4194304250]
    ensures |V32| == 27 && V32[20] == V32[21]
  {
  }

  /** The tables are sequences: the 32-bit lookup keeps all 27 entries and
      holds 4194304250 twice. */
  lemma V32KeepsMultiplicity(width: nat)
    requires width == 4 || width == 8
    ensures |GetInterestingBytes(width)| == 27
    ensures Occurrences(GetInterestingBytes(width), 4194304250) == 2
    ensures GetInterestingBytes(width)[20] == GetInterestingBytes(width)[21]
  {
    V32Occurrences();
  }

  lemma V32Occurrences()
    ensures |V32| == 27 && V32[20] == V32[21]
    ensures Occurrences(V32, 4194304250) == 2
  {
    V32Around();
    OccursTwiceAt(V32, 4194304250, 20);
  }

  lemma OccursTwiceAt(t: seq<U64>, x: int, k: nat)
    requires k + 2 <= |t|
    requires x !in t[..k] && t[k..k + 2] == [x, x] && x !in t[k + 2..]
    ensures Occurrences(t, x) == 2
  {
    assert t[..k] + t[k..] == t;
    assert t[k..k + 2] + t[k + 2..] == t[k..];
    assert Occurrences([x, x], x) == 2;
    OccurrencesConcat(t[k..k + 2], t[k + 2..], x);
    OccurrencesConcat(t[..k], t[k..], x);
  }

  /** Sign extension of a 1-byte value to 2 bytes. */
  function Widen8To16(v: int): int {
    if v >= 0x80 then v + 0xFF00 else v
  }

  /** Sign extension of a 2-byte value to 4 bytes. */
  function Widen16To32(v: int): int {
    if v >= 0x8000 then v + 0xFFFF_0000 else v
  }

  /** True when the wider table starts with the narrower table sign-extended. */
  predicate Extends(narrow: seq<U64>, wide: seq<U64>, widen: int -> int) {
    |narrow| <= |wide| && forall i :: 0 <= i < |narrow| ==> wide[i] == widen(narrow[i])
  }

  predicate Distinct(table: seq<U64>) {
    forall i, j :: 0 <= i < j < |table| ==> table[i] != table[j]
  }

  lemma DistinctConcat(a: seq<U64>, b: seq<U64>)
    requires Distinct(a) && Distinct(b)
    requires forall j :: 0 <= j < |b| ==> b[j] !in a
    ensures Distinct(a + b)
  {
    forall i, j | 0 <= i < j < |a + b| ensures (a + b)[i] != (a + b)[j] {
      if j >= |a| && i < |a| {
        assert (a + b)[j] == b[j - |a|];
        assert (a + b)[i] == a[i];
      }
    }
  }

  /** Sign extension preserves distinctness of 16-bit values. */
  lemma WidenKeepsDistinct(narrow: seq<U64>, wide: seq<U64>)
    requires Distinct(narrow) && AllFit(narrow, 2)
    requires |narrow| == |wide| && Extends(narrow, wide, Widen16To32)
    ensures Distinct(wide)
  {
    Pow256Widths();
  }

  /** The 16-bit table begins with the 8-bit table sign-extended, and has
      no repeated entry. */
  lemma V16ExtendsV8()
    ensures Extends(V8, V16, Widen8To16)
    ensures Distinct(V8) && Distinct(V16)
  {
    V8Distinct();
    V16Distinct();
  }

  lemma V8Distinct()
    ensures Distinct(V8)
  {
  }

  lemma V16Distinct()
    ensures Distinct(V16)
  {
    var head := V16[..9];
    var tail := V16[9..];
    assert head + tail == V16;
    V8Distinct();
    assert AllFit(V8, 1) by { Pow256Widths(); }
    V16Head();
    Widen8KeepsDistinct(V8, head);
    V16Tail();
    DistinctConcat(head, tail);
  }

  lemma V16Head()
    ensures |V16[..9]| == |V8|
    ensures Extends(V8, V16[..9], Widen8To16)
  {
  }

  lemma V16Tail()
    ensures Distinct(V16[9..])
    ensures forall j :: 0 <= j < |V16[9..]| ==> V16[9..][j] !in V16[..9]
  {
    assert V16[..9] == [65408, 65535, 0, 1, 16, 32, 64, 100, 127];
    assert V16[9..] == [32768, 65407, 128, 255, 256, 512, 1000, 1024, 4096, 32767];
  }

  /** Sign extension preserves distinctness of 8-bit values. */
  lemma Widen8KeepsDistinct(narrow: seq<U64>, wide: seq<U64>)
    requires Distinct(narrow) && AllFit(narrow, 1)
    requires |narrow| == |wide| && Extends(narrow, wide, Widen8To16)
    ensures Distinct(wide)
  {
    Pow256Widths();
  }

  /** As written, the 32-bit table breaks the widening pattern at entry 9
      (the 16-bit value 32768, i.e. -32768, widens to 4294934528) and repeats
      4194304250 at entry 21, where the annotation calls for -32769. */
  lemma V32AsWrittenDiscrepancy()
    ensures V16[9] == 32768 && Widen16To32(V16[9]) == 4294934528
    ensures V32[9] == 4294934428 && V32[9] != Widen16To32(V16[9])
    ensures !Extends(V16, V32, Widen16To32)
    ensures V32[20] == V32[21] && !Distinct(V32)
  {
    assert V32[9] != Widen16To32(V16[9]);
  }

  /** The 32-bit table with entries 9 and 21 as their annotations describe:
      -32768 and -32769 as unsigned 32-bit values. */
  const V32Intended: seq<U64> := [
    4294967168, 4294967295, 0, 1, 16, 32, 64, 100, 127,
    4294934528, 4294967167, 128, 255, 256, 512, 1000, 1024, 4096, 32767,
    2147483648, 4194304250, 4294934527, 32768, 65535, 65536, 100663045, 2147483647
  ]

  lemma V32IntendedHead()
    ensures |V32Intended[..19]| == |V16|
    ensures Extends(V16, V32Intended[..19], Widen16To32)
  {
  }

  lemma V32IntendedTail()
    ensures V32Intended[19..] == [2147483648, 4194304250, 4294934527, 32768, 65535, 65536, 100663045, 2147483647]
    ensures Distinct(V32Intended[19..])
  {
  }

  lemma V32IntendedTailIsNew()
    ensures forall j :: 0 <= j < |V32Intended[19..]| ==> V32Intended[19..][j] !in V32Intended[..19]
  {
    V32IntendedTail();
    var head := V32Intended[..19];
    assert head == [
      4294967168, 4294967295, 0, 1, 16, 32, 64, 100, 127,
      4294934528, 4294967167, 128, 255, 256, 512, 1000, 1024, 4096, 32767];
  }

  /** The corrected table widens the 16-bit table, keeps 27 entries, has no
      repeated entry, fits 4 bytes, and differs from the written one only at
      entries 9 and 21. */
  lemma V32IntendedWidensV16()
    ensures |V32Intended| == 27
    ensures Extends(V16, V32Intended, Widen16To32)
    ensures Distinct(V32Intended)
    ensures AllFit(V32Intended, 4)
    ensures forall i :: 0 <= i < 27 && i != 9 && i != 21 ==> V32Intended[i] == V32[i]
  {
    V32IntendedHead();
    V32IntendedDistinct();
    V32IntendedFits();
    V32IntendedAgrees();
  }

  lemma V32IntendedDistinct()
    ensures Distinct(V32Intended)
  {
    var head := V32Intended[..19];
    var tail := V32Intended[19..];
    assert head + tail == V32Intended;
    V16Distinct();
    assert AllFit(V16, 2) by { Pow256Widths(); }
    V32IntendedHead();
    WidenKeepsDistinct(V16, head);
    V32IntendedTail();
    V32IntendedTailIsNew();
    DistinctConcat(head, tail);
  }

  lemma V32IntendedFits()
    ensures AllFit(V32Intended, 4)
  {
    Pow256Widths();
  }

  lemma V32IntendedAgrees()
    ensures |V32Intended| == 27
    ensures forall i :: 0 <= i < 27 && i != 9 && i != 21 ==> V32Intended[i] == V32[i]
  {
  }

  /** The lookup the table annotations describe: the corrected 32-bit table
      for 4- and 8-byte operands, otherwise as written. */
  function GetInterestingBytesIntended(width: nat): (r: seq<U64>)
    ensures width == 4 || width == 8 ==> Extends(GetInterestingBytes(2), r, Widen16To32) && Distinct(r)
    ensures width != 4 && width != 8 ==> r == GetInterestingBytes(width)
    ensures |r| == |GetInterestingBytes(width)|
    ensures AllFit(r, TableBytes(width))
  {
    V32IntendedWidensV16();
    if width == 4 || width == 8 then V32Intended else GetInterestingBytes(width)
  }
}

=== FILE: mb.dfy ===
/**
  The magic-bytes search: plant the predicate's recorded binding and execute
  it once, before the stop signal is polled, discarding what that execution
  reports; then, until stopped, restore the region to the value it had before
  the plant, randomize it, execute, and feed the records to the dictionary.
  Fitness is never looked at and the binding is never written.
 */
module Mb {
  import opened TokenDict
  import opened Search
  import Cbh

  /** What the loop leaves: the dictionary and its rounds. */
  datatype Sweep = Sweep(dict: Dict, rounds: seq<seq<Call>>)

  /** The magic-bytes loop over the remaining trials. */
  function Loop(orig: Value, enableDict: bool, dict: Dict, trials: seq<Trial>): (s: Sweep)
    requires Sliceable(enableDict, trials)
    ensures s.dict == Harvest(dict, enableDict, trials)
    ensures |s.rounds| == |trials|
    ensures forall k :: 0 <= k < |trials| ==> s.rounds[k] == Round(orig, enableDict, trials[k])
    decreases |trials|
  {
    if |trials| == 0 then Sweep(dict, [])
    else
      var t := trials[0];
      var dict' := Feed(dict, enableDict, t);
      HarvestUnfold(dict, enableDict, trials);
      var rest := Loop(orig, enableDict, dict', trials[1..]);
      RoundsStep(orig, enableDict, trials, rest.rounds);
      Sweep(rest.dict, [Round(orig, enableDict, t)] + rest.rounds)
  }

  /** The first iteration's round followed by the rounds of the rest are the
      rounds of the whole trace. */
  lemma RoundsStep(orig: Value, enableDict: bool, trials: seq<Trial>, rest: seq<seq<Call>>)
    requires |trials| > 0 && |rest| == |trials| - 1
    requires forall k :: 0 <= k < |rest| ==> rest[k] == Round(orig, enableDict, trials[1..][k])
    ensures forall k :: 0 <= k < |trials| ==>
              ([Round(orig, enableDict, trials[0])] + rest)[k] == Round(orig, enableDict, trials[k])
  {
    forall k | 0 <= k < |trials|
      ensures ([Round(orig, enableDict, trials[0])] + rest)[k] == Round(orig, enableDict, trials[k])
    {
      if k > 0 {
        assert trials[1..][k - 1] == trials[k];
      }
    }
  }

  /** `MbSearch::run`: `trials` are the loop iterations until the stop
      signal. */
  function Run(enableDict: bool, input: Input, variables: Value, trials: seq<Trial>, dict: Dict): (o: Outcome)
    requires Sliceable(enableDict, trials)
    ensures o.Panicked? <==> input.len == 0
    ensures o.Finished? ==>
      && o.variables == variables
      && o.dict == Harvest(dict, enableDict, trials)
      && WellShaped(o.log)
      && o.log.prelude == [Assign(variables), Execute]
      && |o.log.rounds| == |trials|
      && forall k :: 0 <= k < |trials| ==>
           && RoundOf(o.log.rounds[k], enableDict, trials[k])
           && o.log.rounds[k][1] == Assign(input.value)
  {
    if input.len == 0 then Panicked
    else
      var s := Loop(input.value, enableDict, dict, trials);
      var prelude := [Assign(variables), Execute];
      RoundsWellShaped(prelude, s.rounds, enableDict, trials);
      Finished(variables, s.dict, Log(prelude, s.rounds, [StopCheck(true)]))
  }

  /** Two traces that differ only in the fitness values reported. */
  predicate SameButFitness(trials: seq<Trial>, trials': seq<Trial>) {
    && |trials| == |trials'|
    && forall i :: 0 <= i < |trials| ==>
         && trials[i].value == trials'[i].value
         && trials[i].records == trials'[i].records
         && trials[i].buf == trials'[i].buf
  }

  lemma {:induction false} LoopIgnoresFitness(orig: Value, enableDict: bool, dict: Dict,
                                              trials: seq<Trial>, trials': seq<Trial>)
    requires Sliceable(enableDict, trials) && Sliceable(enableDict, trials')
    requires SameButFitness(trials, trials')
    ensures Loop(orig, enableDict, dict, trials) == Loop(orig, enableDict, dict, trials')
    decreases |trials|
  {
    if |trials| > 0 {
      var t := trials[0];
      var dict' := Feed(dict, enableDict, t);
      assert Sliceable(enableDict, trials[1..]) && Sliceable(enableDict, trials'[1..]) by {
        assert forall i :: 0 <= i < |trials[1..]| ==> trials[1..][i] == trials[i + 1] && trials'[1..][i] == trials'[i + 1];
      }
      assert SameButFitness(trials[1..], trials'[1..]) by {
        assert forall i :: 0 <= i < |trials[1..]| ==> trials[1..][i] == trials[i + 1] && trials'[1..][i] == trials'[i + 1];
      }
      LoopIgnoresFitness(orig, enableDict, dict', trials[1..], trials'[1..]);
      assert Round(orig, enableDict, t) == Round(orig, enableDict, trials'[0]);
    }
  }

  /** The loop never inspects fitness: changing only the fitness values the
      executions report leaves the whole run unchanged. */
  lemma RunIgnoresFitness(enableDict: bool, input: Input, variables: Value,
                          trials: seq<Trial>, trials': seq<Trial>, dict: Dict)
    requires Sliceable(enableDict, trials) && Sliceable(enableDict, trials')
    requires SameButFitness(trials, trials')
    ensures Run(enableDict, input, variables, trials, dict) == Run(enableDict, input, variables, trials', dict)
  {
    LoopIgnoresFitness(input.value, enableDict, dict, trials, trials');
  }

  /** The plant happens even when the stop signal is already set: a run
      whose trace is empty still assigns and executes the binding, and then
      polls the stop signal once. */
  lemma PlantBeforeStop(enableDict: bool, input: Input, variables: Value, dict: Dict)
    requires input.len > 0
    ensures Calls(Run(enableDict, input, variables, [], dict).log) == [Assign(variables), Execute, StopCheck(true)]
    ensures Run(enableDict, input, variables, [], dict).dict == dict
  {
  }

  /** Counting the calls of a finished magic-bytes run: one execution for
      the plant and one per iteration, one filtering per iteration whose
      records feed the dictionary, and the stop signal seen only last. */
  lemma RunCallCounts(enableDict: bool, input: Input, variables: Value, trials: seq<Trial>, dict: Dict)
    requires Sliceable(enableDict, trials) && input.len > 0
    ensures var o := Run(enableDict, input, variables, trials, dict);
            && o.Finished?
            && Count(Calls(o.log), IsExecute) == 1 + |trials|
            && Count(Calls(o.log), IsFilter) == FeedCount(enableDict, trials)
            && Calls(o.log)[|Calls(o.log)| - 1] == StopCheck(true)
            && forall i :: 0 <= i < |Calls(o.log)| - 1 ==> Calls(o.log)[i] != StopCheck(true)
  {
    var o := Run(enableDict, input, variables, trials, dict);
    LogCounts(o.log, enableDict, trials);
    assert Count(o.log.prelude, IsExecute) == 1 by {
      assert o.log.prelude[1..] == [Execute] && o.log.prelude[1..][1..] == [];
    }
    assert Count(o.log.prelude, IsFilter) == 0;
    StopSeenOnlyLast(o.log);
  }

  /** Fed the same trace, the magic-bytes and climbing searches leave the
      shared dictionary in the same state: both loops filter the same
      records, in the same order, under the same condition. */
  lemma SameDictionaryAsClimb(enableDict: bool, input: Input, variables: Value, initial: Fitness,
                              planted: Fitness, trials: seq<Trial>, dict: Dict)
    requires Sliceable(enableDict, trials) && input.len > 0
    ensures Run(enableDict, input, variables, trials, dict).dict
            == Cbh.Run(enableDict, input, variables, initial, planted, trials, dict).dict
  {
  }
}

=== FILE: random.dfy ===
/**
  The random search: until stopped, restore the tainted region to the value
  it had when the run started and randomize it, with the dictionary disabled
  and a fresh, empty local dictionary. It never executes the candidate,
  never touches the shared dictionary and never writes the binding, and it
  does not check the input length.
 */
module Random {
  import opened TokenDict
  import opened Search

  /** The calls of one iteration of the random loop: poll the stop signal,
      restore the original value and randomize it with the dictionary
      disabled, handing over a fresh empty dictionary. */
  function RandomRound(orig: Value): (calls: seq<Call>)
    ensures |calls| > 1 && calls[0] == StopCheck(false) && calls[1] == Assign(orig)
    ensures forall i :: 1 <= i < |calls| ==> !calls[i].StopCheck?
    ensures forall i :: 0 <= i < |calls| ==> !calls[i].Execute? && !calls[i].FilterDict?
    ensures forall i :: 0 <= i < |calls| && calls[i].Randomize? ==> calls[i] == Randomize(false, FreshLocal)
  {
    [StopCheck(false), Assign(orig), Randomize(false, FreshLocal)]
  }

  /** The random loop for `steps` iterations. */
  function Loop(orig: Value, steps: nat): (rounds: seq<seq<Call>>)
    ensures |rounds| == steps
    ensures forall k :: 0 <= k < steps ==> rounds[k] == RandomRound(orig)
    ensures Count(Flatten(rounds), IsExecute) == 0
    ensures Count(Flatten(rounds), IsFilter) == 0
    decreases steps
  {
    if steps == 0 then []
    else
      var rest := Loop(orig, steps - 1);
      var rounds := [RandomRound(orig)] + rest;
      assert rounds[1..] == rest;
      assert Count(RandomRound(orig), IsExecute) == 0 && Count(RandomRound(orig), IsFilter) == 0;
      CountConcat(RandomRound(orig), Flatten(rest), IsExecute);
      CountConcat(RandomRound(orig), Flatten(rest), IsFilter);
      rounds
  }

  /** `RandomSearch::run`: `steps` is how many times the stop signal
      answered false. */
  function Run(input: Input, variables: Value, dict: Dict, steps: nat): (o: Outcome)
    ensures o.Finished?
    ensures o.variables == variables && o.dict == dict
    ensures WellShaped(o.log)
    ensures |o.log.rounds| == steps
    ensures forall k :: 0 <= k < steps ==>
              o.log.rounds[k] == [StopCheck(false), Assign(input.value), Randomize(false, FreshLocal)]
    ensures Count(Calls(o.log), IsExecute) == 0
    ensures Count(Calls(o.log), IsFilter) == 0
    ensures forall i :: 0 <= i < |Calls(o.log)| && Calls(o.log)[i].Randomize? ==>
              Calls(o.log)[i] == Randomize(false, FreshLocal)
  {
    var rounds := Loop(input.value, steps);
    var log := Log([], rounds, [StopCheck(true)]);
    RandomizeFreshOnly(rounds, input.value);
    CountConcat(Flatten(rounds), [StopCheck(true)], IsExecute);
    CountConcat(Flatten(rounds), [StopCheck(true)], IsFilter);
    assert Calls(log) == Flatten(rounds) + [StopCheck(true)];
    Finished(variables, dict, log)
  }

  lemma {:induction false} RandomizeFreshOnly(rounds: seq<seq<Call>>, orig: Value)
    requires forall k :: 0 <= k < |rounds| ==> rounds[k] == RandomRound(orig)
    ensures forall i :: 0 <= i < |Flatten(rounds)| && Flatten(rounds)[i].Randomize? ==>
              Flatten(rounds)[i] == Randomize(false, FreshLocal)
    decreases |rounds|
  {
    if |rounds| > 0 {
      assert forall k :: 0 <= k < |rounds[1..]| ==> rounds[1..][k] == rounds[k + 1];
      RandomizeFreshOnly(rounds[1..], orig);
      var f := Flatten(rounds);
      forall i | 0 <= i < |f| && f[i].Randomize? ensures f[i] == Randomize(false, FreshLocal) {
        if i >= 3 {
          assert f[i] == Flatten(rounds[1..])[i - 3];
        }
      }
    }
  }

  /** A random run is, for the shared dictionary, a magic-bytes or climbing
      loop with the dictionary disabled: nothing is filtered. */
  lemma SameDictionaryAsDisabled(input: Input, variables: Value, dict: Dict, trials: seq<Trial>)
    ensures Run(input, variables, dict, |trials|).dict == Harvest(dict, false, trials)
  {
  }
}

=== FILE: search.dfy ===
/**
  What the three search strategies share. A strategy drives a search handler
  (the executor collaborator) in a loop; here the handler is replaced by a
  finite oracle trace with one `Trial` per loop iteration, and a run returns
  the calls it made on the handler, grouped as a prelude, one group per loop
  iteration ("round"), and the exit. The trace ends where
  `is_stopped_or_skip()` first answers true.
 */
module Search {
  import opened TokenDict

  /** The contents of the tainted region of the input (`get_value()`). */
  type Value = seq<Byte>

  /** The distance an execution reports; lower is better. An abstract total
      order stands for `f64`. */
  type Fitness = int

  /** The candidate input from `get_f_input()`: `len` is what `len()`
      reports (a zero length makes the climbing and magic-bytes searches
      abort) and `value` is the tainted region's current contents. */
  datatype Input = Input(len: nat, value: Value)

  /** Which dictionary `randomize_all` is handed: the process-wide one, or a
      fresh empty local one. */
  datatype DictArg = Shared | FreshLocal

  /** One call a strategy makes on its handler or input. */
  datatype Call =
    | StopCheck(stopped: bool)
    | Assign(value: Value)
    | Randomize(enableDict: bool, dict: DictArg)
    | Execute
    | FilterDict(records: seq<SCond>, buf: seq<Byte>)

  /** What one loop iteration observes: the tainted region after
      `randomize_all`, then the fitness and comparison records
      `execute_cond` returns and the handler's buffer `filter` slices. */
  datatype Trial = Trial(value: Value, fitness: Fitness, records: seq<SCond>, buf: seq<Byte>)

  datatype Log = Log(prelude: seq<Call>, rounds: seq<seq<Call>>, exit: seq<Call>)

  /** A run either aborts on its length assertion or finishes with the
      predicate's variable binding, the shared dictionary and its calls. */
  datatype Outcome = Panicked | Finished(variables: Value, dict: Dict, log: Log)

  /** The iteration folds its records into the shared dictionary. */
  predicate Feeds(enableDict: bool, t: Trial) {
    enableDict && |t.records| > 0
  }

  /** The executor's promise: records that reach `filter` can be sliced
      out of the buffer they are sliced from. */
  predicate Sliceable(enableDict: bool, trials: seq<Trial>) {
    forall i :: 0 <= i < |trials| && Feeds(enableDict, trials[i]) ==>
      AllInBounds(trials[i].records, trials[i].buf)
  }

  /** Number of iterations that feed the dictionary. */
  function FeedCount(enableDict: bool, trials: seq<Trial>): (n: nat)
    ensures n <= |trials|
    ensures !enableDict ==> n == 0
  {
    if |trials| == 0 then 0
    else (if Feeds(enableDict, trials[0]) then 1 else 0) + FeedCount(enableDict, trials[1..])
  }

  /** Combines the first iteration's filtering with the contract of the
      rest of the fold. */
  lemma HarvestStep(d: Dict, d1: Dict, d': Dict, enableDict: bool, trials: seq<Trial>)
    requires |trials| > 0 && Sliceable(enableDict, trials)
    requires d1 == Feed(d, enableDict, trials[0])
    requires Grows(d1, d')
    requires (forall i :: 0 <= i < |trials[1..]| ==> !Feeds(enableDict, trials[1..][i])) ==> d' == d1
    requires forall i :: 0 <= i < |trials[1..]| && Feeds(enableDict, trials[1..][i]) ==>
               Covers(d', trials[1..][i].records, trials[1..][i].buf)
    ensures Grows(d, d')
    ensures (forall i :: 0 <= i < |trials| ==> !Feeds(enableDict, trials[i])) ==> d' == d
    ensures forall i :: 0 <= i < |trials| && Feeds(enableDict, trials[i]) ==>
              Covers(d', trials[i].records, trials[i].buf)
  {
    var t := trials[0];
    GrowsTransitive(d, d1, d');
    forall i | 0 <= i < |trials| && Feeds(enableDict, trials[i])
      ensures Covers(d', trials[i].records, trials[i].buf)
    {
      if i == 0 {
        GrowsKeepsCover(d1, d', t.records, t.buf);
      } else {
        assert trials[1..][i - 1] == trials[i];
      }
    }
    if forall i :: 0 <= i < |trials| ==> !Feeds(enableDict, trials[i]) {
      assert forall i :: 0 <= i < |trials[1..]| ==> trials[1..][i] == trials[i + 1];
    }
  }

  /** `w` was sliced for key `k` by a record of an iteration that fed the
      dictionary. */
  ghost predicate HarvestedFor(enableDict: bool, trials: seq<Trial>, k: CmpId, w: Token)
    requires Sliceable(enableDict, trials)
  {
    exists i :: 0 <= i < |trials| && Feeds(enableDict, trials[i])
                && SlicedFor(trials[i].records, trials[i].buf, k, w)
  }

  /** The dictionary after one iteration: filtered with the iteration's
      records when they feed it, otherwise as it was. */
  function Feed(d: Dict, enableDict: bool, t: Trial): (d': Dict)
    requires Feeds(enableDict, t) ==> AllInBounds(t.records, t.buf)
    ensures Grows(d, d')
    ensures !Feeds(enableDict, t) ==> d' == d
    ensures Feeds(enableDict, t) ==> Covers(d', t.records, t.buf)
    ensures Feeds(enableDict, t) ==> forall k: CmpId :: Unnamed(t.records, k) ==> SameOn(d, d', k)
    ensures Feeds(enableDict, t) ==> forall i :: |d.keys| <= i < |d'.keys| ==>
              d'.keys[i] !in d.lists && !Unnamed(t.records, d'.keys[i])
    ensures Feeds(enableDict, t) ==> d'.keys == d.keys + NewKeys(d.lists.Keys, t.records)
    ensures Feeds(enableDict, t) ==> d'.lists.Keys == d.lists.Keys + Named(t.records)
  {
    if Feeds(enableDict, t) then
      FilterKeySet(d, t.records, t.buf);
      Filter(d, t.records, t.buf)
    else d
  }

  /** Under keys known before, the first iteration and the rest of the loop
      each add only fresh words, and so does the whole loop. */
  lemma HarvestNewStep(d: Dict, d1: Dict, d': Dict, enableDict: bool, t: Trial)
    requires Feeds(enableDict, t) ==> AllInBounds(t.records, t.buf)
    requires d1 == Feed(d, enableDict, t)
    requires Grows(d1, d') && AddsOnlyNew(d1, d')
    ensures AddsOnlyNew(d, d')
  {
    FeedAdds(d, enableDict, t, d1);
    AddsOnlyNewTransitive(d, d1, d');
  }

  /** What the first iteration and the rest of the fold add: only words
      sliced by feeding iterations. */
  lemma HarvestAddsStep(d: Dict, d1: Dict, d': Dict, enableDict: bool, trials: seq<Trial>)
    requires |trials| > 0 && Sliceable(enableDict, trials) && Sliceable(enableDict, trials[1..])
    requires d1 == Feed(d, enableDict, trials[0])
    requires Grows(d1, d')
    requires forall k: CmpId, m: int :: k in d'.lists && ListLen(d1, k) <= m < |d'.lists[k]| ==>
               HarvestedFor(enableDict, trials[1..], k, d'.lists[k][m])
    ensures forall k: CmpId, m: int :: k in d'.lists && ListLen(d, k) <= m < |d'.lists[k]| ==>
              HarvestedFor(enableDict, trials, k, d'.lists[k][m])
  {
    FeedAdds(d, enableDict, trials[0], d1);
    HarvestAddsCore(d, d1, d', enableDict, trials);
  }

  /** The same, from what the first iteration added. */
  lemma HarvestAddsCore(d: Dict, d1: Dict, d': Dict, enableDict: bool, trials: seq<Trial>)
    requires |trials| > 0 && Sliceable(enableDict, trials) && Sliceable(enableDict, trials[1..])
    requires Grows(d, d1) && Grows(d1, d')
    requires !Feeds(enableDict, trials[0]) ==> d1 == d
    requires Feeds(enableDict, trials[0]) ==> forall k: CmpId, m: int ::
               k in d1.lists && ListLen(d, k) <= m < |d1.lists[k]| ==>
               SlicedFor(trials[0].records, trials[0].buf, k, d1.lists[k][m])
    requires forall k: CmpId, m: int :: k in d'.lists && ListLen(d1, k) <= m < |d'.lists[k]| ==>
               HarvestedFor(enableDict, trials[1..], k, d'.lists[k][m])
    ensures forall k: CmpId, m: int :: k in d'.lists && ListLen(d, k) <= m < |d'.lists[k]| ==>
              HarvestedFor(enableDict, trials, k, d'.lists[k][m])
  {
    forall k: CmpId, m: int | k in d'.lists && ListLen(d, k) <= m < |d'.lists[k]|
      ensures HarvestedFor(enableDict, trials, k, d'.lists[k][m])
    {
      if k in d1.lists && m < |d1.lists[k]| {
        assert d1.lists[k] <= d'.lists[k];
        HarvestedFirst(enableDict, trials, k, d'.lists[k][m]);
      } else {
        HarvestedLater(enableDict, trials, k, d'.lists[k][m]);
      }
    }
  }

  /** One iteration grows the dictionary only by words its records sliced,
      and under known keys only by fresh ones. */
  lemma FeedAdds(d: Dict, enableDict: bool, t: Trial, d1: Dict)
    requires Feeds(enableDict, t) ==> AllInBounds(t.records, t.buf)
    requires d1 == Feed(d, enableDict, t)
    ensures Grows(d, d1) && AddsOnlyNew(d, d1)
    ensures Feeds(enableDict, t) ==> forall k: CmpId, m: int ::
              k in d1.lists && ListLen(d, k) <= m < |d1.lists[k]| ==>
              SlicedFor(t.records, t.buf, k, d1.lists[k][m])
  {
  }

  /** A word the first iteration sliced, when it fed the dictionary, was
      sliced by an iteration of the trace. */
  lemma HarvestedFirst(enableDict: bool, trials: seq<Trial>, k: CmpId, w: Token)
    requires |trials| > 0 && Sliceable(enableDict, trials) && Feeds(enableDict, trials[0])
    requires SlicedFor(trials[0].records, trials[0].buf, k, w)
    ensures HarvestedFor(enableDict, trials, k, w)
  {
  }

  /** A word a later iteration sliced was sliced by an iteration of the
      whole trace. */
  lemma HarvestedLater(enableDict: bool, trials: seq<Trial>, k: CmpId, w: Token)
    requires |trials| > 0 && Sliceable(enableDict, trials) && Sliceable(enableDict, trials[1..])
    requires HarvestedFor(enableDict, trials[1..], k, w)
    ensures HarvestedFor(enableDict, trials, k, w)
  {
    var i :| 0 <= i < |trials[1..]| && Feeds(enableDict, trials[1..][i])
             && SlicedFor(trials[1..][i].records, trials[1..][i].buf, k, w);
    assert trials[1..][i] == trials[i + 1];
  }

  /** The words of the first record naming `k` in the first iteration that
      fed the dictionary a record naming it; none when no iteration did. */
  function HarvestFirstWords(enableDict: bool, trials: seq<Trial>, k: CmpId): seq<Token>
    requires Sliceable(enableDict, trials)
    decreases |trials|
  {
    if |trials| == 0 then []
    else if Feeds(enableDict, trials[0]) && !Unnamed(trials[0].records, k) then
      FirstWords(trials[0].records, trials[0].buf, k)
    else
      assert Sliceable(enableDict, trials[1..]) by {
        assert forall i :: 0 <= i < |trials[1..]| ==> trials[1..][i] == trials[i + 1];
      }
      HarvestFirstWords(enableDict, trials[1..], k)
  }

  /** The list a loop starts `k` from: the list `d` has, or, for a key the
      loop creates, the words of the first record that named it, verbatim. */
  function HarvestBase(d: Dict, enableDict: bool, trials: seq<Trial>, k: CmpId): seq<Token>
    requires Sliceable(enableDict, trials)
  {
    if k in d.lists then d.lists[k] else HarvestFirstWords(enableDict, trials, k)
  }

  /** The fresh part of the first iteration and of the rest of the loop
      compose, key by key, from the base of the whole loop. */
  lemma HarvestBaseStep(d: Dict, d1: Dict, d': Dict, enableDict: bool, trials: seq<Trial>)
    requires |trials| > 0 && Sliceable(enableDict, trials) && Sliceable(enableDict, trials[1..])
    requires d1 == Feed(d, enableDict, trials[0])
    requires forall k: CmpId :: k in d'.lists ==> ExtendsFresh(HarvestBase(d1, enableDict, trials[1..], k), d'.lists[k])
    ensures forall k: CmpId :: k in d'.lists ==> ExtendsFresh(HarvestBase(d, enableDict, trials, k), d'.lists[k])
  {
    var t := trials[0];
    forall k: CmpId | k in d'.lists ensures ExtendsFresh(HarvestBase(d, enableDict, trials, k), d'.lists[k]) {
      if k in d.lists {
        FeedAdds(d, enableDict, t, d1);
        assert ExtendsFresh(d.lists[k], d1.lists[k]);
        ExtendsFreshTransitive(d.lists[k], d1.lists[k], d'.lists[k]);
      } else if Feeds(enableDict, t) && !Unnamed(t.records, k) {
        var i :| 0 <= i < |t.records| && t.records[i].cmpid == k;
        assert k in d1.lists;
        assert Base(d, t.records, t.buf, k) == FirstWords(t.records, t.buf, k);
        ExtendsFreshTransitive(FirstWords(t.records, t.buf, k), d1.lists[k], d'.lists[k]);
      } else {
        assert k !in d1.lists;
      }
    }
  }

  /** Some iteration that fed the dictionary had a record naming `k`. */
  ghost predicate FedName(enableDict: bool, trials: seq<Trial>, k: CmpId) {
    exists i :: 0 <= i < |trials| && Feeds(enableDict, trials[i]) && !Unnamed(trials[i].records, k)
  }

  /** The keys a loop adds, in order: each feeding iteration's new keys,
      against the keys known by then. */
  function HarvestNewKeys(known: set<CmpId>, enableDict: bool, trials: seq<Trial>): seq<CmpId>
    decreases |trials|
  {
    if |trials| == 0 then []
    else if Feeds(enableDict, trials[0]) then
      NewKeys(known, trials[0].records) + HarvestNewKeys(known + Named(trials[0].records), enableDict, trials[1..])
    else HarvestNewKeys(known, enableDict, trials[1..])
  }

  /** A key no feeding iteration names is left alone by the first iteration
      and by the rest of the loop. */
  lemma HarvestFrameStep(d: Dict, d1: Dict, d': Dict, enableDict: bool, trials: seq<Trial>)
    requires |trials| > 0
    requires Feeds(enableDict, trials[0]) ==>
               forall k: CmpId :: Unnamed(trials[0].records, k) ==> SameOn(d, d1, k)
    requires !Feeds(enableDict, trials[0]) ==> d1 == d
    requires forall k: CmpId :: !FedName(enableDict, trials[1..], k) ==> SameOn(d1, d', k)
    ensures forall k: CmpId :: !FedName(enableDict, trials, k) ==> SameOn(d, d', k)
  {
    forall k: CmpId | !FedName(enableDict, trials, k) ensures SameOn(d, d', k) {
      FedNameTail(enableDict, trials, k);
      assert Feeds(enableDict, trials[0]) ==> Unnamed(trials[0].records, k);
    }
  }

  /** A name fed by the rest of a trace is fed by the whole trace. */
  lemma FedNameTail(enableDict: bool, trials: seq<Trial>, k: CmpId)
    requires |trials| > 0
    ensures FedName(enableDict, trials[1..], k) ==> FedName(enableDict, trials, k)
  {
    if FedName(enableDict, trials[1..], k) {
      var j :| 0 <= j < |trials[1..]| && Feeds(enableDict, trials[1..][j]) && !Unnamed(trials[1..][j].records, k);
      assert trials[1..][j] == trials[j + 1];
    }
  }

  /** A key the loop adds was absent and is named by a feeding iteration. */
  lemma HarvestAddedStep(d: Dict, d1: Dict, d': Dict, enableDict: bool, trials: seq<Trial>)
    requires |trials| > 0
    requires Feeds(enableDict, trials[0]) ==> forall i :: |d.keys| <= i < |d1.keys| ==>
               d1.keys[i] !in d.lists && !Unnamed(trials[0].records, d1.keys[i])
    requires !Feeds(enableDict, trials[0]) ==> d1 == d
    requires Grows(d, d1) && Grows(d1, d')
    requires forall i :: |d1.keys| <= i < |d'.keys| ==>
               d'.keys[i] !in d1.lists && FedName(enableDict, trials[1..], d'.keys[i])
    ensures forall i :: |d.keys| <= i < |d'.keys| ==>
              d'.keys[i] !in d.lists && FedName(enableDict, trials, d'.keys[i])
  {
    forall i | |d.keys| <= i < |d'.keys| ensures d'.keys[i] !in d.lists && FedName(enableDict, trials, d'.keys[i]) {
      var k := d'.keys[i];
      if i < |d1.keys| {
        assert d1.keys[i] == k;
        assert Feeds(enableDict, trials[0]) && !Unnamed(trials[0].records, k);
      } else {
        FedNameTail(enableDict, trials, k);
      }
    }
  }

  /** The keys the first iteration adds come before those of the rest. */
  lemma HarvestKeysStep(d: Dict, d1: Dict, d': Dict, enableDict: bool, trials: seq<Trial>)
    requires |trials| > 0
    requires Feeds(enableDict, trials[0]) ==>
               d1.keys == d.keys + NewKeys(d.lists.Keys, trials[0].records)
               && d1.lists.Keys == d.lists.Keys + Named(trials[0].records)
    requires !Feeds(enableDict, trials[0]) ==> d1 == d
    requires d'.keys == d1.keys + HarvestNewKeys(d1.lists.Keys, enableDict, trials[1..])
    ensures d'.keys == d.keys + HarvestNewKeys(d.lists.Keys, enableDict, trials)
  {
    if Feeds(enableDict, trials[0]) {
      var a := NewKeys(d.lists.Keys, trials[0].records);
      var b := HarvestNewKeys(d1.lists.Keys, enableDict, trials[1..]);
      assert HarvestNewKeys(d.lists.Keys, enableDict, trials) == a + b;
      assert (d.keys + a) + b == d.keys + (a + b);
    }
  }

  /** The dictionary after the iterations of a trace have fed it in order. */
  function Harvest(d: Dict, enableDict: bool, trials: seq<Trial>): (d': Dict)
    requires Sliceable(enableDict, trials)
    ensures Grows(d, d')
    ensures Valid(d) ==> Valid(d')
    ensures (forall i :: 0 <= i < |trials| ==> !Feeds(enableDict, trials[i])) ==> d' == d
    ensures forall i :: 0 <= i < |trials| && Feeds(enableDict, trials[i]) ==>
              Covers(d', trials[i].records, trials[i].buf)
    ensures forall k: CmpId, m: int :: k in d'.lists && ListLen(d, k) <= m < |d'.lists[k]| ==>
              HarvestedFor(enableDict, trials, k, d'.lists[k][m])
    ensures AddsOnlyNew(d, d')
    ensures forall k: CmpId :: k in d'.lists ==> ExtendsFresh(HarvestBase(d, enableDict, trials, k), d'.lists[k])
    ensures forall k: CmpId :: !FedName(enableDict, trials, k) ==> SameOn(d, d', k)
    ensures forall i :: |d.keys| <= i < |d'.keys| ==> d'.keys[i] !in d.lists && FedName(enableDict, trials, d'.keys[i])
    ensures d'.keys == d.keys + HarvestNewKeys(d.lists.Keys, enableDict, trials)
    decreases |trials|
  {
    if |trials| == 0 then d
    else
      var t := trials[0];
      var d1 := Feed(d, enableDict, t);
      assert Sliceable(enableDict, trials[1..]) by {
        assert forall i :: 0 <= i < |trials[1..]| ==> trials[1..][i] == trials[i + 1];
      }
      var d' := Harvest(d1, enableDict, trials[1..]);
      HarvestStep(d, d1, d', enableDict, trials);
      HarvestNewStep(d, d1, d', enableDict, t);
      HarvestAddsStep(d, d1, d', enableDict, trials);
      HarvestBaseStep(d, d1, d', enableDict, trials);
      HarvestFrameStep(d, d1, d', enableDict, trials);
      HarvestAddedStep(d, d1, d', enableDict, trials);
      HarvestKeysStep(d, d1, d', enableDict, trials);
      d'
  }

  /** One iteration of the harvest, unfolded. */
  lemma HarvestUnfold(d: Dict, enableDict: bool, trials: seq<Trial>)
    requires |trials| > 0 && Sliceable(enableDict, trials)
    ensures Sliceable(enableDict, trials[1..])
    ensures Harvest(d, enableDict, trials)
            == Harvest(Feed(d, enableDict, trials[0]),
                       enableDict, trials[1..])
  {
    assert forall i :: 0 <= i < |trials[1..]| ==> trials[1..][i] == trials[i + 1];
  }

  /** The calls of one iteration of the climbing or magic-bytes loop: poll
      the stop signal, reset the region, randomize it against the shared
      dictionary, execute, and filter the records when they feed it. */
  function Round(restart: Value, enableDict: bool, t: Trial): (calls: seq<Call>)
    ensures |calls| >= 4 && calls[0] == StopCheck(false)
    ensures forall i :: 1 <= i < |calls| ==> !calls[i].StopCheck?
    ensures calls[1] == Assign(restart) && calls[2] == Randomize(enableDict, Shared) && calls[3] == Execute
    ensures calls[|calls| - 1].FilterDict? <==> Feeds(enableDict, t)
    ensures forall i :: 0 <= i < |calls| && calls[i].FilterDict? ==>
              i == |calls| - 1 && calls[i] == FilterDict(t.records, t.buf)
  {
    [StopCheck(false), Assign(restart), Randomize(enableDict, Shared), Execute]
    + (if Feeds(enableDict, t) then [FilterDict(t.records, t.buf)] else [])
  }

  /** `calls` is the round of trial `t`, whatever value it restarted from. */
  predicate RoundOf(calls: seq<Call>, enableDict: bool, t: Trial) {
    |calls| >= 2 && calls[1].Assign? && calls == Round(calls[1].value, enableDict, t)
  }

  function Flatten(rounds: seq<seq<Call>>): (calls: seq<Call>)
    decreases |rounds|
  {
    if |rounds| == 0 then [] else rounds[0] + Flatten(rounds[1..])
  }

  /** Every call a run made, in order. */
  function Calls(log: Log): seq<Call> {
    log.prelude + Flatten(log.rounds) + log.exit
  }

  /** The loop discipline: the prelude never polls the stop signal, every
      round polls it first and sees false, and the run ends right after the
      one poll that sees true. */
  ghost predicate WellShaped(log: Log) {
    && (forall i :: 0 <= i < |log.prelude| ==> !log.prelude[i].StopCheck?)
    && (forall k :: 0 <= k < |log.rounds| ==>
          && |log.rounds[k]| > 0
          && log.rounds[k][0] == StopCheck(false)
          && forall i :: 1 <= i < |log.rounds[k]| ==> !log.rounds[k][i].StopCheck?)
    && log.exit == [StopCheck(true)]
  }

  /** Number of calls satisfying `p`. */
  function Count(calls: seq<Call>, p: Call -> bool): (n: nat)
    ensures n <= |calls|
    ensures n == 0 <==> forall i :: 0 <= i < |calls| ==> !p(calls[i])
    decreases |calls|
  {
    if |calls| == 0 then 0
    else (if p(calls[0]) then 1 else 0) + Count(calls[1..], p)
  }

  predicate IsExecute(c: Call) { c.Execute? }
  predicate IsFilter(c: Call) { c.FilterDict? }
  predicate IsStopSeen(c: Call) { c == StopCheck(true) }

  lemma {:induction false} CountConcat(a: seq<Call>, b: seq<Call>, p: Call -> bool)
    ensures Count(a + b, p) == Count(a, p) + Count(b, p)
    decreases |a|
  {
    if |a| == 0 {
      assert a + b == b;
    } else {
      assert (a + b)[1..] == a[1..] + b;
      CountConcat(a[1..], b, p);
    }
  }

  /** One round executes once, filters exactly when its trial feeds the
      dictionary, and never sees the stop signal. */
  lemma RoundCounts(restart: Value, enableDict: bool, t: Trial)
    ensures Count(Round(restart, enableDict, t), IsExecute) == 1
    ensures Count(Round(restart, enableDict, t), IsFilter) == if Feeds(enableDict, t) then 1 else 0
    ensures Count(Round(restart, enableDict, t), IsStopSeen) == 0
    ensures Round(restart, enableDict, t)[0] == StopCheck(false)
    ensures forall i :: 1 <= i < |Round(restart, enableDict, t)| ==> !Round(restart, enableDict, t)[i].StopCheck?
  {
    var head := [StopCheck(false), Assign(restart), Randomize(enableDict, Shared), Execute];
    var tail := if Feeds(enableDict, t) then [FilterDict(t.records, t.buf)] else [];
    var polls := [StopCheck(false), Assign(restart), Randomize(enableDict, Shared)];
    assert head == polls + [Execute];
    assert Count(polls, IsExecute) == 0 && Count(polls, IsFilter) == 0 && Count(polls, IsStopSeen) == 0;
    assert Count([Execute], IsExecute) == 1 by {
      assert [Execute][1..] == [];
    }
    assert Count([Execute], IsFilter) == 0 && Count([Execute], IsStopSeen) == 0;
    CountConcat(polls, [Execute], IsExecute);
    CountConcat(polls, [Execute], IsFilter);
    CountConcat(polls, [Execute], IsStopSeen);
    if Feeds(enableDict, t) {
      assert Count(tail, IsFilter) == 1 by {
        assert tail[1..] == [];
      }
    }
    CountConcat(head, tail, IsExecute);
    CountConcat(head, tail, IsFilter);
    CountConcat(head, tail, IsStopSeen);
  }

  /** A log whose prelude never polls the stop signal, whose rounds are
      rounds of the trace, and which exits on the first positive poll, keeps
      the loop discipline. */
  lemma RoundsWellShaped(prelude: seq<Call>, rounds: seq<seq<Call>>, enableDict: bool, trials: seq<Trial>)
    requires forall i :: 0 <= i < |prelude| ==> !prelude[i].StopCheck?
    requires |rounds| == |trials|
    requires forall k :: 0 <= k < |rounds| ==> RoundOf(rounds[k], enableDict, trials[k])
    ensures WellShaped(Log(prelude, rounds, [StopCheck(true)]))
  {
    forall k | 0 <= k < |rounds|
      ensures |rounds[k]| > 0 && rounds[k][0] == StopCheck(false)
      ensures forall i :: 1 <= i < |rounds[k]| ==> !rounds[k][i].StopCheck?
    {
      RoundCounts(rounds[k][1].value, enableDict, trials[k]);
    }
  }

  /** Over the rounds of a trace, there is one execution per trial, one
      filtering per feeding trial, and no positive stop poll. */
  lemma {:induction false} RoundsCounts(rounds: seq<seq<Call>>, enableDict: bool, trials: seq<Trial>)
    requires |rounds| == |trials|
    requires forall k :: 0 <= k < |rounds| ==> RoundOf(rounds[k], enableDict, trials[k])
    ensures Count(Flatten(rounds), IsExecute) == |trials|
    ensures Count(Flatten(rounds), IsFilter) == FeedCount(enableDict, trials)
    ensures Count(Flatten(rounds), IsStopSeen) == 0
    decreases |rounds|
  {
    if |rounds| > 0 {
      var r := rounds[0];
      assert RoundOf(r, enableDict, trials[0]);
      RoundCounts(r[1].value, enableDict, trials[0]);
      assert forall k :: 0 <= k < |rounds[1..]| ==> rounds[1..][k] == rounds[k + 1] && trials[1..][k] == trials[k + 1];
      RoundsCounts(rounds[1..], enableDict, trials[1..]);
      CountConcat(r, Flatten(rounds[1..]), IsExecute);
      CountConcat(r, Flatten(rounds[1..]), IsFilter);
      CountConcat(r, Flatten(rounds[1..]), IsStopSeen);
    }
  }

  lemma {:induction false} FlattenNoStopSeen(rounds: seq<seq<Call>>)
    requires forall k :: 0 <= k < |rounds| ==>
      && |rounds[k]| > 0 && rounds[k][0] == StopCheck(false)
      && forall i :: 1 <= i < |rounds[k]| ==> !rounds[k][i].StopCheck?
    ensures forall i :: 0 <= i < |Flatten(rounds)| ==> Flatten(rounds)[i] != StopCheck(true)
    decreases |rounds|
  {
    if |rounds| > 0 {
      assert forall k :: 0 <= k < |rounds[1..]| ==> rounds[1..][k] == rounds[k + 1];
      FlattenNoStopSeen(rounds[1..]);
      var f := Flatten(rounds);
      forall i | 0 <= i < |f| ensures f[i] != StopCheck(true) {
        if i >= |rounds[0]| {
          assert f[i] == Flatten(rounds[1..])[i - |rounds[0]|];
        }
      }
    }
  }

  /** The calls of a log whose rounds are rounds of the trace: the prelude's
      executions and filterings plus one execution per trial and one
      filtering per feeding trial. */
  lemma LogCounts(log: Log, enableDict: bool, trials: seq<Trial>)
    requires log.exit == [StopCheck(true)]
    requires |log.rounds| == |trials|
    requires forall k :: 0 <= k < |log.rounds| ==> RoundOf(log.rounds[k], enableDict, trials[k])
    ensures Count(Calls(log), IsExecute) == Count(log.prelude, IsExecute) + |trials|
    ensures Count(Calls(log), IsFilter) == Count(log.prelude, IsFilter) + FeedCount(enableDict, trials)
  {
    RoundsCounts(log.rounds, enableDict, trials);
    var body := log.prelude + Flatten(log.rounds);
    CountConcat(log.prelude, Flatten(log.rounds), IsExecute);
    CountConcat(body, log.exit, IsExecute);
    CountConcat(log.prelude, Flatten(log.rounds), IsFilter);
    CountConcat(body, log.exit, IsFilter);
    assert Count(log.exit, IsExecute) == 0 && Count(log.exit, IsFilter) == 0;
  }

  /** Stop responsiveness: in a well-shaped run the stop signal is seen
      exactly once, by the last call, so nothing runs after it. */
  lemma StopSeenOnlyLast(log: Log)
    requires WellShaped(log)
    ensures |Calls(log)| > 0 && Calls(log)[|Calls(log)| - 1] == StopCheck(true)
    ensures forall i :: 0 <= i < |Calls(log)| - 1 ==> Calls(log)[i] != StopCheck(true)
  {
    FlattenNoStopSeen(log.rounds);
    var body := log.prelude + Flatten(log.rounds);
    assert Calls(log) == body + [StopCheck(true)];
    forall i | 0 <= i < |body| ensures body[i] != StopCheck(true) {
      if i >= |log.prelude| {
        assert body[i] == Flatten(log.rounds)[i - |log.prelude|];
      }
    }
  }
}

=== FILE: token_dict.dfy ===
/**
  The comparison-token dictionary. After an execution, the executor reports
  one record per comparison site: its `cmpid` and the tainted byte ranges of
  its operands. `Filter` slices each range out of the handler's buffer and
  files the resulting words under the record's `cmpid`. The dictionary is an
  insertion-ordered map (Rust's `IndexMap`): its keys keep the
  order in which they were first inserted.
 */
module TokenDict {

  type Byte = x: int | 0 <= x < 0x100

  /** A comparison-site identifier (`u32`). */
  type CmpId = x: int | 0 <= x < 0x1_0000_0000

  /** A token: bytes sliced out of the handler's buffer. */
  type Token = seq<Byte>

  /** An inclusive byte range `begin..=end` of the input. */
  datatype TagSeg = TagSeg(begin: nat, end: nat)

  /** One comparison record reported by an execution (`SCond`). */
  datatype SCond = SCond(cmpid: CmpId, offsets: seq<TagSeg>)

  /** The insertion-ordered map: `keys` in insertion order, `lists` the word
      list filed under each key. */
  datatype Dict = Dict(keys: seq<CmpId>, lists: map<CmpId, seq<Token>>)

  /** The dictionary a fuzzing campaign starts with (`Dict::default()`). */
  const Empty: Dict := Dict([], map[])

  /** The representation invariant: keys are distinct and are exactly the
      keys of `lists`. */
  ghost predicate Valid(d: Dict) {
    && (forall i, j :: 0 <= i < j < |d.keys| ==> d.keys[i] != d.keys[j])
    && (forall k :: k in d.lists <==> k in d.keys)
  }

  /** The slice `buf[begin..end + 1]` does not panic. */
  predicate InBounds(tag: TagSeg, buf: seq<Byte>) {
    tag.begin <= tag.end + 1 <= |buf|
  }

  predicate OffsetsInBounds(offsets: seq<TagSeg>, buf: seq<Byte>) {
    forall i :: 0 <= i < |offsets| ==> InBounds(offsets[i], buf)
  }

  /** Every range of every record can be sliced out of `buf`. */
  predicate AllInBounds(conds: seq<SCond>, buf: seq<Byte>) {
    forall i :: 0 <= i < |conds| ==> OffsetsInBounds(conds[i].offsets, buf)
  }

  /** The word a range denotes: the bytes `begin` through `end` inclusive. */
  function Slice(buf: seq<Byte>, tag: TagSeg): (w: Token)
    requires InBounds(tag, buf)
    ensures |w| == tag.end - tag.begin + 1
    ensures forall i :: 0 <= i < |w| ==> w[i] == buf[tag.begin + i]
  {
    buf[tag.begin..tag.end + 1]
  }

  /** The words of one record, one per range, in range order. */
  function Words(buf: seq<Byte>, offsets: seq<TagSeg>): (ws: seq<Token>)
    requires OffsetsInBounds(offsets, buf)
    ensures |ws| == |offsets|
    ensures forall i :: 0 <= i < |ws| ==> ws[i] == Slice(buf, offsets[i])
    decreases |offsets|
  {
    if |offsets| == 0 then []
    else [Slice(buf, offsets[0])] + Words(buf, offsets[1..])
  }

  /** The position of the first occurrence of `w` in `ws`. */
  function IndexOf(ws: seq<Token>, w: Token): (i: nat)
    requires w in ws
    ensures i < |ws| && ws[i] == w
    ensures forall j :: 0 <= j < i ==> ws[j] != w
    decreases |ws|
  {
    if ws[0] == w then 0 else 1 + IndexOf(ws[1..], w)
  }

  /** The inner loop for a known key: each word not yet in the list is pushed
      at its end, in the order the words come. */
  function AppendNew(list: seq<Token>, words: seq<Token>): (r: seq<Token>)
    ensures list <= r
    ensures forall w :: w in r <==> w in list || w in words
    ensures forall i, j :: |list| <= i < |r| && 0 <= j < |r| && i != j ==> r[i] != r[j]
    ensures forall i :: |list| <= i < |r| ==> r[i] in words
    ensures forall i, j :: |list| <= i < j < |r| ==> IndexOf(words, r[i]) < IndexOf(words, r[j])
    ensures |r| <= |list| + |words|
    decreases |words|
  {
    if |words| == 0 then list
    else
      var list' := if words[0] in list then list else list + [words[0]];
      var r := AppendNew(list', words[1..]);
      AppendNewOrder(list, words, list', r);
      r
  }

  /** The first word, when it is pushed, goes before every later push, and
      the later pushes keep their order: every pushed word is absent from
      the list, so none of them is the first word unless pushed first. */
  lemma AppendNewOrder(list: seq<Token>, words: seq<Token>, list': seq<Token>, r: seq<Token>)
    requires |words| > 0
    requires list' == if words[0] in list then list else list + [words[0]]
    requires list' <= r
    requires forall i, j :: |list'| <= i < |r| && 0 <= j < |r| && i != j ==> r[i] != r[j]
    requires forall i :: |list'| <= i < |r| ==> r[i] in words[1..]
    requires forall i, j :: |list'| <= i < j < |r| ==> IndexOf(words[1..], r[i]) < IndexOf(words[1..], r[j])
    ensures forall i :: |list| <= i < |r| ==> r[i] in words
    ensures forall i, j :: |list| <= i < j < |r| ==> IndexOf(words, r[i]) < IndexOf(words, r[j])
  {
    LaterPushesDiffer(list, words[0], list', r);
    forall i | |list| <= i < |r| ensures r[i] in words {
      if i >= |list'| {
        assert r[i] in words[1..];
      }
    }
    forall i, j | |list| <= i < j < |r| ensures IndexOf(words, r[i]) < IndexOf(words, r[j]) {
      PushOrder(list, words, list', r, i, j);
    }
  }

  /** Two pushed words, for one pair of positions. */
  lemma PushOrder(list: seq<Token>, words: seq<Token>, list': seq<Token>, r: seq<Token>, i: int, j: int)
    requires |words| > 0 && |list| <= |list'| <= |list| + 1 && |list'| <= |r|
    requires |list'| == |list| + 1 ==> r[|list|] == words[0]
    requires |list| <= i < j < |r|
    requires forall k :: |list| <= k < |r| ==> r[k] in words
    requires forall k :: |list'| <= k < |r| ==> r[k] in words[1..] && r[k] != words[0]
    requires forall k, l :: |list'| <= k < l < |r| ==> IndexOf(words[1..], r[k]) < IndexOf(words[1..], r[l])
    ensures IndexOf(words, r[i]) < IndexOf(words, r[j])
  {
    IndexOfTail(words, r[j]);
    if i >= |list'| {
      IndexOfTail(words, r[i]);
      assert IndexOf(words[1..], r[i]) < IndexOf(words[1..], r[j]);
    } else {
      assert r[i] == words[0];
      assert IndexOf(words, r[i]) == 0;
    }
  }

  /** Words pushed after the first one differ from it: it was either listed
      already or pushed just before them. */
  lemma LaterPushesDiffer(list: seq<Token>, w: Token, list': seq<Token>, r: seq<Token>)
    requires list' == if w in list then list else list + [w]
    requires list' <= r
    requires forall i, j :: |list'| <= i < |r| && 0 <= j < |r| && i != j ==> r[i] != r[j]
    ensures forall i :: |list'| <= i < |r| ==> r[i] != w
  {
    var n := if w in list then IndexOf(list, w) else |list|;
    assert n < |list'| && list'[n] == w;
    assert r[n] == w;
  }

  /** A word other than the first is found one place later than in the
      tail. */
  lemma IndexOfTail(ws: seq<Token>, w: Token)
    requires |ws| > 0 && w in ws[1..] && ws[0] != w
    ensures w in ws && IndexOf(ws, w) == 1 + IndexOf(ws[1..], w)
  {
  }

  /** `d'` extends `d`: no key is lost, keys keep their order with new keys
      after the old ones, and every old list is a prefix of its new list. */
  ghost predicate Grows(d: Dict, d': Dict) {
    && d.keys <= d'.keys
    && forall k :: k in d.lists ==> k in d'.lists && d.lists[k] <= d'.lists[k]
  }

  /** Every record's key is present and lists every word sliced for it. */
  ghost predicate Covers(d: Dict, conds: seq<SCond>, buf: seq<Byte>)
    requires AllInBounds(conds, buf)
  {
    forall i :: 0 <= i < |conds| ==>
      && conds[i].cmpid in d.lists
      && forall j :: 0 <= j < |conds[i].offsets| ==>
           Slice(buf, conds[i].offsets[j]) in d.lists[conds[i].cmpid]
  }

  /** No record of `conds` names key `k`. */
  predicate Unnamed(conds: seq<SCond>, k: CmpId) {
    forall i :: 0 <= i < |conds| ==> conds[i].cmpid != k
  }

  /** The keys the records of `conds` name. */
  function Named(conds: seq<SCond>): (ks: set<CmpId>)
    ensures forall k :: k in ks <==> !Unnamed(conds, k)
  {
    set i | 0 <= i < |conds| :: conds[i].cmpid
  }

  /** The keys records of `conds` name that are not in `known`, in the
      order of the first record naming each, each once. */
  function NewKeys(known: set<CmpId>, conds: seq<SCond>): seq<CmpId>
    decreases |conds|
  {
    if |conds| == 0 then []
    else if conds[0].cmpid in known then NewKeys(known, conds[1..])
    else [conds[0].cmpid] + NewKeys(known + {conds[0].cmpid}, conds[1..])
  }

  /** `d'` agrees with `d` on key `k`. */
  predicate SameOn(d: Dict, d': Dict, k: CmpId) {
    && (k in d'.lists <==> k in d.lists)
    && (k in d.lists ==> d'.lists[k] == d.lists[k])
  }

  /** How many words `d` lists under `k`: none when `k` is absent. */
  function ListLen(d: Dict, k: CmpId): (n: nat)
    ensures k in d.lists ==> n == |d.lists[k]|
    ensures k !in d.lists ==> n == 0
  {
    if k in d.lists then |d.lists[k]| else 0
  }

  /** `w` is sliced out of `buf` for one of the ranges of a record of
      `conds` that names key `k`. */
  ghost predicate SlicedFor(conds: seq<SCond>, buf: seq<Byte>, k: CmpId, w: Token)
    requires AllInBounds(conds, buf)
  {
    exists i, j :: 0 <= i < |conds| && 0 <= j < |conds[i].offsets| && conds[i].cmpid == k
                   && w == Slice(buf, conds[i].offsets[j])
  }

  /** Every word `d'` lists under a key beyond those `d` listed there was
      sliced for that key by a record of `conds`: nothing else is filed. */
  ghost predicate AddsOnlySliced(d: Dict, d': Dict, conds: seq<SCond>, buf: seq<Byte>)
    requires AllInBounds(conds, buf)
  {
    forall k: CmpId, m: int :: k in d'.lists && ListLen(d, k) <= m < |d'.lists[k]| ==>
      SlicedFor(conds, buf, k, d'.lists[k][m])
  }

  /** `list` starts with `base`, and each word past `base` differs from
      every other word of `list`: nothing was pushed twice, and nothing
      already listed was pushed again. */
  ghost predicate ExtendsFresh(base: seq<Token>, list: seq<Token>) {
    && base <= list
    && forall m, n :: |base| <= m < |list| && 0 <= n < |list| && m != n ==> list[m] != list[n]
  }

  /** Under every key `d` already had, each word `d'` added differs from
      every other word of that key's list: a known key never gains a
      duplicate. */
  ghost predicate AddsOnlyNew(d: Dict, d': Dict) {
    forall k :: k in d.lists && k in d'.lists ==> ExtendsFresh(d.lists[k], d'.lists[k])
  }

  /** The words of the first record of `conds` that names `k`; none when no
      record does. */
  function FirstWords(conds: seq<SCond>, buf: seq<Byte>, k: CmpId): seq<Token>
    requires AllInBounds(conds, buf)
    decreases |conds|
  {
    if |conds| == 0 then []
    else if conds[0].cmpid == k then Words(buf, conds[0].offsets)
    else FirstWords(conds[1..], buf, k)
  }

  /** The list filtering `conds` into `d` starts `k` from: the list `d` has,
      or, for a key the call creates, its first record's words verbatim. */
  function Base(d: Dict, conds: seq<SCond>, buf: seq<Byte>, k: CmpId): seq<Token>
    requires AllInBounds(conds, buf)
  {
    if k in d.lists then d.lists[k] else FirstWords(conds, buf, k)
  }

  /** Every word of a record is sliced for the record's key. */
  lemma WordsSliced(buf: seq<Byte>, cond: SCond)
    requires OffsetsInBounds(cond.offsets, buf)
    ensures forall w :: w in Words(buf, cond.offsets) ==> SlicedFor([cond], buf, cond.cmpid, w)
  {
    var ws := Words(buf, cond.offsets);
    forall w | w in ws ensures SlicedFor([cond], buf, cond.cmpid, w) {
      var j :| 0 <= j < |ws| && ws[j] == w;
      assert [cond][0] == cond;
      assert w == Slice(buf, [cond][0].offsets[j]);
    }
  }

  /** The body of the outer loop of `filter`, for one record. */
  function FilterCond(d: Dict, cond: SCond, buf: seq<Byte>): (d': Dict)
    requires OffsetsInBounds(cond.offsets, buf)
    ensures Grows(d, d')
    ensures Covers(d', [cond], buf)
    ensures forall k :: k != cond.cmpid ==> SameOn(d, d', k)
    ensures |d'.keys| <= |d.keys| + 1
    ensures |d'.keys| == |d.keys| + 1 ==> d'.keys[|d.keys|] == cond.cmpid && cond.cmpid !in d.lists
    ensures AddsOnlySliced(d, d', [cond], buf)
    ensures AddsOnlyNew(d, d')
    ensures Valid(d) ==> Valid(d')
  {
    var words := Words(buf, cond.offsets);
    if cond.cmpid in d.lists then
      var list := AppendNew(d.lists[cond.cmpid], words);
      FilterCondAdds(d, cond, buf, list, Dict(d.keys, d.lists[cond.cmpid := list]));
      UpdateFrame(d, cond.cmpid, list, Dict(d.keys, d.lists[cond.cmpid := list]));
      Dict(d.keys, d.lists[cond.cmpid := list])
    else
      FilterCondAdds(d, cond, buf, words, Dict(d.keys + [cond.cmpid], d.lists[cond.cmpid := words]));
      UpdateFrame(d, cond.cmpid, words, Dict(d.keys + [cond.cmpid], d.lists[cond.cmpid := words]));
      Dict(d.keys + [cond.cmpid], d.lists[cond.cmpid := words])
  }

  /** Updating one key leaves every other key as it was. */
  lemma UpdateFrame(d: Dict, key: CmpId, list: seq<Token>, d': Dict)
    requires d'.lists == d.lists[key := list]
    ensures forall k :: k != key ==> SameOn(d, d', k)
  {
  }

  /** What one record adds under its key: its own words, and for a known
      key only words the list lacked. */
  lemma FilterCondAdds(d: Dict, cond: SCond, buf: seq<Byte>, list: seq<Token>, d': Dict)
    requires OffsetsInBounds(cond.offsets, buf)
    requires cond.cmpid in d.lists ==> list == AppendNew(d.lists[cond.cmpid], Words(buf, cond.offsets))
    requires cond.cmpid !in d.lists ==> list == Words(buf, cond.offsets)
    requires d'.lists == d.lists[cond.cmpid := list]
    ensures AddsOnlySliced(d, d', [cond], buf)
    ensures AddsOnlyNew(d, d')
  {
    WordsSliced(buf, cond);
    forall k: CmpId, m: int | k in d'.lists && ListLen(d, k) <= m < |d'.lists[k]|
      ensures SlicedFor([cond], buf, k, d'.lists[k][m])
    {
      assert k == cond.cmpid;
      assert list[m] in Words(buf, cond.offsets);
    }
  }

  lemma GrowsTransitive(d1: Dict, d2: Dict, d3: Dict)
    requires Grows(d1, d2) && Grows(d2, d3)
    ensures Grows(d1, d3)
  {
  }

  lemma GrowsKeepsCover(d: Dict, d': Dict, conds: seq<SCond>, buf: seq<Byte>)
    requires AllInBounds(conds, buf)
    requires Grows(d, d') && Covers(d, conds, buf)
    ensures Covers(d', conds, buf)
  {
    forall i, j | 0 <= i < |conds| && 0 <= j < |conds[i].offsets|
      ensures Slice(buf, conds[i].offsets[j]) in d'.lists[conds[i].cmpid]
    {
      var k := conds[i].cmpid;
      assert d.lists[k] <= d'.lists[k];
    }
  }

  /** Adding only fresh words composes: what the second step adds is fresh
      by its own contract, and what the first step added stays fresh. */
  lemma AddsOnlyNewTransitive(d1: Dict, d2: Dict, d3: Dict)
    requires Grows(d1, d2) && Grows(d2, d3)
    requires AddsOnlyNew(d1, d2) && AddsOnlyNew(d2, d3)
    ensures AddsOnlyNew(d1, d3)
  {
    forall k | k in d1.lists && k in d3.lists ensures ExtendsFresh(d1.lists[k], d3.lists[k]) {
      ExtendsFreshTransitive(d1.lists[k], d2.lists[k], d3.lists[k]);
    }
  }

  /** Two fresh extensions in a row make one. */
  lemma ExtendsFreshTransitive(l1: seq<Token>, l2: seq<Token>, l3: seq<Token>)
    requires ExtendsFresh(l1, l2) && ExtendsFresh(l2, l3)
    ensures ExtendsFresh(l1, l3)
  {
    forall m, n | |l1| <= m < |l3| && 0 <= n < |l3| && m != n ensures l3[m] != l3[n] {
      if m < |l2| {
        if n < |l2| {
          assert l2[m] != l2[n];
        } else {
          assert l3[n] != l3[m];
        }
      }
    }
  }

  /** The fresh part of the first record's step and of the rest of the
      fold compose, key by key, from the base of the whole call. */
  lemma FilterBaseStep(d: Dict, d1: Dict, d': Dict, conds: seq<SCond>, buf: seq<Byte>)
    requires |conds| > 0 && AllInBounds(conds, buf) && AllInBounds(conds[1..], buf)
    requires d1 == FilterCond(d, conds[0], buf)
    requires forall k: CmpId :: k in d'.lists ==> ExtendsFresh(Base(d1, conds[1..], buf, k), d'.lists[k])
    ensures forall k: CmpId :: k in d'.lists ==> ExtendsFresh(Base(d, conds, buf, k), d'.lists[k])
  {
    forall k: CmpId | k in d'.lists ensures ExtendsFresh(Base(d, conds, buf, k), d'.lists[k]) {
      if k in d.lists {
        assert ExtendsFresh(d.lists[k], d1.lists[k]);
        ExtendsFreshTransitive(d.lists[k], d1.lists[k], d'.lists[k]);
      } else if k == conds[0].cmpid {
        assert d1.lists[k] == Words(buf, conds[0].offsets);
      } else {
        assert SameOn(d, d1, k);
      }
    }
  }

  /** The words the first record and the rest of the fold add are sliced
      for records of the whole sequence. */
  lemma FilterSlicedStep(d: Dict, d1: Dict, d': Dict, conds: seq<SCond>, buf: seq<Byte>)
    requires |conds| > 0 && AllInBounds(conds, buf)
    requires Grows(d, d1) && Grows(d1, d')
    requires AddsOnlySliced(d, d1, [conds[0]], buf)
    requires AddsOnlySliced(d1, d', conds[1..], buf)
    ensures AddsOnlySliced(d, d', conds, buf)
  {
    forall k: CmpId, m: int | k in d'.lists && ListLen(d, k) <= m < |d'.lists[k]|
      ensures SlicedFor(conds, buf, k, d'.lists[k][m])
    {
      var w := d'.lists[k][m];
      if k in d1.lists && m < |d1.lists[k]| {
        assert d1.lists[k] <= d'.lists[k];
        assert d1.lists[k][m] == w;
        var i, j :| 0 <= i < 1 && 0 <= j < |[conds[0]][i].offsets| && [conds[0]][i].cmpid == k
                    && w == Slice(buf, [conds[0]][i].offsets[j]);
        assert conds[0] == [conds[0]][i];
      } else {
        var i, j :| 0 <= i < |conds[1..]| && 0 <= j < |conds[1..][i].offsets| && conds[1..][i].cmpid == k
                    && w == Slice(buf, conds[1..][i].offsets[j]);
        assert conds[1..][i] == conds[i + 1];
      }
    }
  }

  /** Combines the contract of the first record's step with the contract of
      the rest of the fold. */
  lemma FilterStep(d: Dict, d1: Dict, d': Dict, conds: seq<SCond>, buf: seq<Byte>)
    requires |conds| > 0 && AllInBounds(conds, buf)
    requires d1 == FilterCond(d, conds[0], buf)
    requires Grows(d1, d') && Covers(d', conds[1..], buf)
    requires forall k :: Unnamed(conds[1..], k) ==> SameOn(d1, d', k)
    requires forall i :: |d1.keys| <= i < |d'.keys| ==> d'.keys[i] !in d1.lists && !Unnamed(conds[1..], d'.keys[i])
    ensures Grows(d, d')
    ensures Covers(d', conds, buf)
    ensures forall k :: Unnamed(conds, k) ==> SameOn(d, d', k)
    ensures forall i :: |d.keys| <= i < |d'.keys| ==> d'.keys[i] !in d.lists && !Unnamed(conds, d'.keys[i])
  {
    GrowsTransitive(d, d1, d');
    assert Covers(d1, conds[..1], buf);
    GrowsKeepsCover(d1, d', conds[..1], buf);
    forall i | 0 <= i < |conds|
      ensures conds[i].cmpid in d'.lists
      ensures forall j :: 0 <= j < |conds[i].offsets| ==> Slice(buf, conds[i].offsets[j]) in d'.lists[conds[i].cmpid]
    {
      if i == 0 {
        assert conds[..1][0] == conds[0];
      } else {
        assert conds[1..][i - 1] == conds[i];
      }
    }
    forall k | Unnamed(conds, k) ensures SameOn(d, d', k) {
      assert k != conds[0].cmpid;
      assert Unnamed(conds[1..], k);
    }
    forall i | |d.keys| <= i < |d'.keys| ensures d'.keys[i] !in d.lists && !Unnamed(conds, d'.keys[i]) {
      if i < |d1.keys| {
        assert d'.keys[i] == d1.keys[i];
        assert d1.keys[i] == conds[0].cmpid;
      } else {
        var j :| 0 <= j < |conds[1..]| && conds[1..][j].cmpid == d'.keys[i];
        assert conds[j + 1].cmpid == d'.keys[i];
      }
    }
  }

  /** One record leaves the keys alone when its key is known, and appends
      it to the keys otherwise. */
  lemma FilterCondKeys(d: Dict, cond: SCond, buf: seq<Byte>)
    requires OffsetsInBounds(cond.offsets, buf)
    ensures cond.cmpid in d.lists ==>
              FilterCond(d, cond, buf).keys == d.keys && FilterCond(d, cond, buf).lists.Keys == d.lists.Keys
    ensures cond.cmpid !in d.lists ==>
              FilterCond(d, cond, buf).keys == d.keys + [cond.cmpid]
              && FilterCond(d, cond, buf).lists.Keys == d.lists.Keys + {cond.cmpid}
  {
  }

  /** The first record adds its key after the existing ones when the key
      is new, so the keys the call adds come in first-naming order. */
  lemma FilterKeysStep(d: Dict, d1: Dict, d': Dict, conds: seq<SCond>)
    requires |conds| > 0
    requires conds[0].cmpid in d.lists ==> d1.keys == d.keys && d1.lists.Keys == d.lists.Keys
    requires conds[0].cmpid !in d.lists ==>
               d1.keys == d.keys + [conds[0].cmpid] && d1.lists.Keys == d.lists.Keys + {conds[0].cmpid}
    requires d'.keys == d1.keys + NewKeys(d1.lists.Keys, conds[1..])
    ensures d'.keys == d.keys + NewKeys(d.lists.Keys, conds)
  {
    if conds[0].cmpid in d.lists {
      NewKeysKnown(d.lists.Keys, d1.lists.Keys, conds);
    } else {
      NewKeysNew(d.lists.Keys, d1.lists.Keys, conds);
      KeysAppend(d.keys, conds[0].cmpid, NewKeys(d1.lists.Keys, conds[1..]));
    }
  }

  /** A record whose key is known adds no key. */
  lemma NewKeysKnown(known: set<CmpId>, known': set<CmpId>, conds: seq<SCond>)
    requires |conds| > 0 && conds[0].cmpid in known && known' == known
    ensures NewKeys(known', conds[1..]) == NewKeys(known, conds)
  {
  }

  /** A record whose key is new adds it first, and later records see it as
      known. */
  lemma NewKeysNew(known: set<CmpId>, known': set<CmpId>, conds: seq<SCond>)
    requires |conds| > 0 && conds[0].cmpid !in known && known' == known + {conds[0].cmpid}
    ensures [conds[0].cmpid] + NewKeys(known', conds[1..]) == NewKeys(known, conds)
  {
  }

  lemma KeysAppend(keys: seq<CmpId>, c: CmpId, rest: seq<CmpId>)
    ensures keys + [c] + rest == keys + ([c] + rest)
  {
  }

  /** `Dict::filter`: fold every record into the dictionary, in order. */
  function Filter(d: Dict, conds: seq<SCond>, buf: seq<Byte>): (d': Dict)
    requires AllInBounds(conds, buf)
    ensures Grows(d, d')
    ensures Covers(d', conds, buf)
    ensures forall k :: Unnamed(conds, k) ==> SameOn(d, d', k)
    ensures forall i :: |d.keys| <= i < |d'.keys| ==> d'.keys[i] !in d.lists && !Unnamed(conds, d'.keys[i])
    ensures AddsOnlySliced(d, d', conds, buf)
    ensures AddsOnlyNew(d, d')
    ensures forall k: CmpId :: k in d'.lists ==> ExtendsFresh(Base(d, conds, buf, k), d'.lists[k])
    ensures d'.keys == d.keys + NewKeys(d.lists.Keys, conds)
    ensures Valid(d) ==> Valid(d')
    decreases |conds|
  {
    if |conds| == 0 then d
    else
      var d1 := FilterCond(d, conds[0], buf);
      var d' := Filter(d1, conds[1..], buf);
      FilterStep(d, d1, d', conds, buf);
      FilterSlicedStep(d, d1, d', conds, buf);
      AddsOnlyNewTransitive(d, d1, d');
      FilterBaseStep(d, d1, d', conds, buf);
      FilterCondKeys(d, conds[0], buf);
      FilterKeysStep(d, d1, d', conds);
      d'
  }

  /** Filtering adds exactly the keys the records name. */
  lemma FilterKeySet(d: Dict, conds: seq<SCond>, buf: seq<Byte>)
    requires AllInBounds(conds, buf)
    ensures Filter(d, conds, buf).lists.Keys == d.lists.Keys + Named(conds)
  {
    var d' := Filter(d, conds, buf);
    KeySetOf(d.lists.Keys, d'.lists.Keys, conds);
  }

  /** A key set that keeps the old keys, holds every named key and agrees
      with the old one on unnamed keys is the old one plus the named keys. */
  lemma KeySetOf(before: set<CmpId>, after: set<CmpId>, conds: seq<SCond>)
    requires before <= after
    requires forall i :: 0 <= i < |conds| ==> conds[i].cmpid in after
    requires forall k :: Unnamed(conds, k) ==> (k in after <==> k in before)
    ensures after == before + Named(conds)
  {
  }

  /** A record whose key is new is filed verbatim: one word per range, in
      range order, duplicates kept. The key goes after every existing key. */
  lemma FilterCondFresh(d: Dict, cond: SCond, buf: seq<Byte>)
    requires OffsetsInBounds(cond.offsets, buf)
    requires cond.cmpid !in d.lists
    ensures FilterCond(d, cond, buf).keys == d.keys + [cond.cmpid]
    ensures |FilterCond(d, cond, buf).lists[cond.cmpid]| == |cond.offsets|
    ensures forall i :: 0 <= i < |cond.offsets| ==>
              FilterCond(d, cond, buf).lists[cond.cmpid][i] == Slice(buf, cond.offsets[i])
  {
  }

  /** A record whose key is known keeps the key order and the old list as a
      prefix, and only appends words the list did not hold, each once, in
      the order the record's ranges give them. */
  lemma FilterCondKnown(d: Dict, cond: SCond, buf: seq<Byte>)
    requires OffsetsInBounds(cond.offsets, buf)
    requires cond.cmpid in d.lists
    ensures FilterCond(d, cond, buf).keys == d.keys
    ensures d.lists[cond.cmpid] <= FilterCond(d, cond, buf).lists[cond.cmpid]
    ensures forall i :: |d.lists[cond.cmpid]| <= i < |FilterCond(d, cond, buf).lists[cond.cmpid]| ==>
              && FilterCond(d, cond, buf).lists[cond.cmpid][i] !in d.lists[cond.cmpid]
              && FilterCond(d, cond, buf).lists[cond.cmpid][i] in Words(buf, cond.offsets)
    ensures forall i, j :: |d.lists[cond.cmpid]| <= i < j < |FilterCond(d, cond, buf).lists[cond.cmpid]| ==>
              IndexOf(Words(buf, cond.offsets), FilterCond(d, cond, buf).lists[cond.cmpid][i])
              < IndexOf(Words(buf, cond.offsets), FilterCond(d, cond, buf).lists[cond.cmpid][j])
  {
  }

  /** When the dictionary already covers a word list, appending it changes
      nothing. */
  lemma {:induction false} AppendNewCovered(list: seq<Token>, words: seq<Token>)
    requires forall i :: 0 <= i < |words| ==> words[i] in list
    ensures AppendNew(list, words) == list
    decreases |words|
  {
    if |words| > 0 {
      AppendNewCovered(list, words[1..]);
    }
  }

  /** A dictionary that already covers the records is a fixed point of
      filtering them. */
  lemma {:induction false} FilterCovered(d: Dict, conds: seq<SCond>, buf: seq<Byte>)
    requires AllInBounds(conds, buf)
    requires Covers(d, conds, buf)
    ensures Filter(d, conds, buf) == d
    decreases |conds|
  {
    if |conds| > 0 {
      var c := conds[0];
      var words := Words(buf, c.offsets);
      assert c.cmpid in d.lists;
      AppendNewCovered(d.lists[c.cmpid], words);
      assert d.lists[c.cmpid := d.lists[c.cmpid]] == d.lists;
      assert FilterCond(d, c, buf) == d;
      assert Covers(d, conds[1..], buf) by {
        forall i | 0 <= i < |conds[1..]| ensures conds[1..][i] == conds[i + 1] {
        }
      }
      FilterCovered(d, conds[1..], buf);
    }
  }

  /** The words of every record of `conds` that names `k`, in record order
      and range order. */
  function KeyWords(conds: seq<SCond>, buf: seq<Byte>, k: CmpId): seq<Token>
    requires AllInBounds(conds, buf)
    decreases |conds|
  {
    if |conds| == 0 then []
    else (if conds[0].cmpid == k then Words(buf, conds[0].offsets) else []) + KeyWords(conds[1..], buf, k)
  }

  /** The words of the records naming `k` after the first one. */
  function LaterWords(conds: seq<SCond>, buf: seq<Byte>, k: CmpId): seq<Token>
    requires AllInBounds(conds, buf)
    decreases |conds|
  {
    if |conds| == 0 then []
    else if conds[0].cmpid == k then KeyWords(conds[1..], buf, k)
    else LaterWords(conds[1..], buf, k)
  }

  /** The words the call pushes, deduplicated, after `k`'s base: all words
      sliced for a known key, and those after the first record for a key
      the call creates. */
  function PushedWords(d: Dict, conds: seq<SCond>, buf: seq<Byte>, k: CmpId): seq<Token>
    requires AllInBounds(conds, buf)
  {
    if k in d.lists then KeyWords(conds, buf, k) else LaterWords(conds, buf, k)
  }

  /** Pushing two word lists one after the other is pushing their
      concatenation. */
  lemma {:induction false} AppendNewConcat(list: seq<Token>, a: seq<Token>, b: seq<Token>)
    ensures AppendNew(AppendNew(list, a), b) == AppendNew(list, a + b)
    decreases |a|
  {
    if |a| == 0 {
      assert a + b == b;
    } else {
      assert (a + b)[0] == a[0] && (a + b)[1..] == a[1..] + b;
      AppendNewConcat(if a[0] in list then list else list + [a[0]], a[1..], b);
    }
  }

  /** The list filtering leaves under a key: its base, then, pushed in order
      and each only when missing, the words of the later records naming
      it. This fixes the word order across records. */
  lemma {:induction false} FilterLists(d: Dict, conds: seq<SCond>, buf: seq<Byte>, k: CmpId)
    requires AllInBounds(conds, buf)
    ensures k in Filter(d, conds, buf).lists ==>
              Filter(d, conds, buf).lists[k] == AppendNew(Base(d, conds, buf, k), PushedWords(d, conds, buf, k))
    decreases |conds|
  {
    if |conds| == 0 {
      if k in d.lists {
        assert AppendNew(d.lists[k], []) == d.lists[k];
      }
    } else {
      var c := conds[0];
      var d1 := FilterCond(d, c, buf);
      assert AllInBounds(conds[1..], buf);
      assert Filter(d, conds, buf) == Filter(d1, conds[1..], buf);
      FilterLists(d1, conds[1..], buf, k);
      FilterListsStep(d, d1, conds, buf, k);
    }
  }

  /** The first record's contribution to `k`'s list, composed with the
      rest of the fold. */
  lemma FilterListsStep(d: Dict, d1: Dict, conds: seq<SCond>, buf: seq<Byte>, k: CmpId)
    requires |conds| > 0 && AllInBounds(conds, buf) && AllInBounds(conds[1..], buf)
    requires d1 == FilterCond(d, conds[0], buf)
    ensures k in d1.lists ==>
              AppendNew(Base(d1, conds[1..], buf, k), PushedWords(d1, conds[1..], buf, k))
              == AppendNew(Base(d, conds, buf, k), PushedWords(d, conds, buf, k))
    ensures k !in d1.lists ==>
              && Base(d1, conds[1..], buf, k) == Base(d, conds, buf, k)
              && PushedWords(d1, conds[1..], buf, k) == PushedWords(d, conds, buf, k)
  {
    var c := conds[0];
    var words := Words(buf, c.offsets);
    var rest := KeyWords(conds[1..], buf, k);
    if k in d.lists {
      if c.cmpid == k {
        assert d1.lists[k] == AppendNew(d.lists[k], words);
        assert KeyWords(conds, buf, k) == words + rest;
        AppendNewConcat(d.lists[k], words, rest);
      } else {
        assert d1.lists[k] == d.lists[k];
        assert KeyWords(conds, buf, k) == [] + rest;
        assert [] + rest == rest;
      }
    } else if c.cmpid == k {
      assert d1.lists[k] == words;
    } else {
      assert SameOn(d, d1, k);
    }
  }

  /** Filtering the same records against the same buffer twice gives the
      dictionary filtering them once gives. */
  lemma FilterIdempotent(d: Dict, conds: seq<SCond>, buf: seq<Byte>)
    requires AllInBounds(conds, buf)
    ensures Filter(Filter(d, conds, buf), conds, buf) == Filter(d, conds, buf)
  {
    FilterCovered(Filter(d, conds, buf), conds, buf);
  }

  /** A key absent before the call and named by exactly one record ends up
      with that record's words verbatim. */
  lemma {:induction false} FilterSingleRecordVerbatim(d: Dict, conds: seq<SCond>, buf: seq<Byte>, i: nat)
    requires AllInBounds(conds, buf)
    requires i < |conds| && conds[i].cmpid !in d.lists
    requires forall j :: 0 <= j < |conds| && j != i ==> conds[j].cmpid != conds[i].cmpid
    ensures conds[i].cmpid in Filter(d, conds, buf).lists
    ensures Filter(d, conds, buf).lists[conds[i].cmpid] == Words(buf, conds[i].offsets)
    decreases |conds|
  {
    var k := conds[i].cmpid;
    var d1 := FilterCond(d, conds[0], buf);
    if i == 0 {
      assert Unnamed(conds[1..], k) by {
        forall j | 0 <= j < |conds[1..]| ensures conds[1..][j].cmpid != k {
          assert conds[1..][j] == conds[j + 1];
        }
      }
    } else {
      assert conds[0].cmpid != k;
      assert conds[1..][i - 1] == conds[i];
      forall j | 0 <= j < |conds[1..]| && j != i - 1 ensures conds[1..][j].cmpid != k {
        assert conds[1..][j] == conds[j + 1];
      }
      FilterSingleRecordVerbatim(d1, conds[1..], buf, i - 1);
    }
  }

  /** Example: two identical ranges under a new key give the word twice;
      filtering the same record again adds nothing. */
  lemma FreshKeyKeepsDuplicates()
    ensures var buf := [0x41, 0x42];
            var conds := [SCond(7, [TagSeg(0, 1), TagSeg(0, 1)])];
            && Filter(Empty, conds, buf) == Dict([7], map[7 := [[0x41, 0x42], [0x41, 0x42]]])
            && Filter(Filter(Empty, conds, buf), conds, buf) == Filter(Empty, conds, buf)
  {
    var buf: seq<Byte> := [0x41, 0x42];
    var c := SCond(7, [TagSeg(0, 1), TagSeg(0, 1)]);
    var conds := [c];
    var w := Slice(buf, TagSeg(0, 1));
    assert w == [0x41, 0x42];
    assert Words(buf, c.offsets) == [w, w];
    var d1 := FilterCond(Empty, c, buf);
    assert d1 == Dict([7], map[7 := [w, w]]);
    assert Filter(Empty, conds, buf) == Filter(d1, [], buf);
    FilterIdempotent(Empty, conds, buf);
  }
}
